=== FILE: README.md ===
# cal-track analytics in Dafny

A model of the analytics core of the cal-track weight calculator (`app.js`).
It covers:

- the `CalculationEngine`:
  - BMR and BMI
  - the logging streak
  - the four-week weight trend
  - days to the target weight
  - the empirical TDEE and its confidence label
  - the metabolic-adaptation percentage
- the `localStorage` fallback of `DataManager` that saves and deletes daily entries;
- the secondary pure helpers:
  - the projection arithmetic of the calculator form
  - the BMI category
  - the four ideal-weight formulas
  - the macro split of each eating style
  - the numeric thresholds behind the insights panel.

Conventions:

- Entries are immutable records, and a list of entries is a `seq<Entry>`.
- Dates are integer day numbers. The wall clock is a parameter `now`: a real
  number of days whose fractional part is the time of day.
- Weights and calories are exact `real`s.
- `Math.round` and `Math.ceil` are written out with `Floor`.
- The `'∞'` sentinel, `null` results and thrown errors are datatypes
  (`Projection`, `Option`, `Result`).
- JavaScript's `Array.prototype.sort` is stable, so it is modelled by a stable
  insertion sort (`StableSort.Sort`) keyed by the date, or by the negated
  date for newest-first order.

Modules, one per component:

| module | file | what it models |
|---|---|---|
| `Wrappers` | wrappers.dfy | `Option` and `Result` |
| `Numeric` | numeric.dfy | `Math.round`, `Math.ceil`, `Math.abs`, `Math.max`, `Math.min` |
| `Seqs` | seqs.dfy | `Array.prototype.filter` |
| `StableSort` | stable_sort.dfy | `Array.prototype.sort` with a numeric comparator |
| `Entries` | entries.dfy | entry and profile records, `CONFIG.CALORIES_PER_KG` |
| `EntryStore` | entry_store.dfy | the fallback save and delete of `DataManager` |
| `BodyMetrics` | body_metrics.dfy | BMR, BMI, BMI category, ideal weights |
| `Trend` | trend.dfy | streak, weekly average, days to goal |
| `EmpiricalTdee` | real_tdee.dfy | `calculateRealTDEE` |
| `Adaptation` | adaptation.dfy | `calculateMetabolicAdaptation` |
| `Plan` | plan.dfy | the projection arithmetic of `calcular` |
| `Macros` | macros.dfy | `getMacroPercentages` |
| `Insights` | insights.dfy | the thresholds of `gerarInsights` |

## Model

| member | source | states |
|---|---|---|
| `Seqs.Filter` | app.js:181 | The result holds exactly the elements that pass the test: every element kept passes and is from the input, and every input element that passes is kept. |
| `StableSort.Sort` | app.js:143 | The result is a permutation of the input, ordered by the key; when no two keys are equal it is strictly ordered. |
| `StableSort.StrictlySortedUnique` | app.js:143 | Two strictly key-ordered lists holding the same elements are equal, so the sorted store list is determined by its entries. |
| `EntryStore.FindIndex` | app.js:127 | The index found is the first entry with the date; `None` exactly when no entry has that date. |
| `EntryStore.Upsert` | app.js:127-140 | The new entry is present. Entries with other dates are present exactly as before. The length grows by one only when the date was new. One entry per date is preserved. |
| `EntryStore.SaveEntry` | app.js:126-144 | The replace-or-append followed by the date-descending sort. The saved entry is present. Entries with other dates are unchanged. The length grows only for a new date. The result is sorted newest first, strictly when the store had one entry per date. |
| `EntryStore.SaveDailyEntry` | app.js:109-144 | Fails with the missing-field error exactly when the weight is absent or 0 or the date is absent. Otherwise it stores the entry built from the form. |
| `EntryStore.DeleteEntry` | app.js:179-182 | No entry with the date remains. Every other entry is kept. A newest-first list stays newest first. Deleting an absent date changes nothing. |
| `EntryStore.SaveKeepsOneEntryPerDate` | app.js:127-143 | After a save onto a store with one entry per date, exactly one entry carries the saved date, it is the saved entry, and a lookup by that date finds it. |
| `EntryStore.SaveKeepsOtherDates` | app.js:127-143 | A lookup for any other date answers as it did before the save. |
| `EntryStore.SaveThenDelete` | app.js:126-144 | Saving and then deleting date d gives the same list as deleting d from the original store. |
| `EntryStore.SaveIsDeleteThenSave` | app.js:126-144 | Saving over an existing date equals deleting that date and saving afresh. |
| `EntryStore.SaveIdempotent` | app.js:126-144 | Saving the same entry twice equals saving it once. |
| `BodyMetrics.Bmr` | app.js:233-240 | Mifflin-St Jeor: 10 per kg, 6.25 per cm, −5 per year, plus 5 for exactly `'masculino'` and −161 for every other tag. Its contract is carried by `BmrMaleGap`, `BmrLinear` and `BmrExample`. |
| `BodyMetrics.BmrMaleGap` | app.js:233-240 | For equal weight, height and age, `'masculino'` yields exactly 166 kcal more than any other gender tag, including malformed ones. |
| `BodyMetrics.BmrLinear` | app.js:233-240 | On either branch, BMR moves by +10 per kg, +6.25 per cm and −5 per year. |
| `BodyMetrics.BmrExample` | app.js:233-240 | 70 kg, 175 cm, 30 years gives 1648.75 for a man and 1482.75 otherwise. |
| `BodyMetrics.Imc` | app.js:242-244 | BMI times the square of the height in metres gives back the weight. |
| `BodyMetrics.ImcExample` | app.js:242-244 | 70 kg at 175 cm gives a BMI between 22.85 and 22.86. |
| `BodyMetrics.Category` | app.js:1095-1100 | Each category holds exactly on its half-open interval: below 18.5, [18.5, 25), [25, 30), 30 and above. |
| `BodyMetrics.CategoryMonotone` | app.js:1095-1100 | A larger BMI never lands in a lower category. |
| `BodyMetrics.IdealWeight` | app.js:1115-1141 | The result is within half a kilogram of base + (height/2.54 − 60) × increment, using each formula's per-sex constants. |
| `BodyMetrics.IdealWeightAtSixtyInches` | app.js:1115-1141 | At 152.4 cm every formula returns its base weight, rounded. |
| `BodyMetrics.IdealWeightMonotone` | app.js:1115-1141 | A taller height never gets a lower ideal weight from the same formula. |
| `Trend.DaysAgo` | app.js:253-254 | The floored day difference from the clock equals today's day number minus the entry's day number. |
| `Trend.Streak` | app.js:246-264 | The streak k is at most the list length. The first k entries are dated today, yesterday, and so on. Entry k, if any, breaks that pattern. If the newest entry is not today, k is 0. |
| `Trend.TrendWindowBoundary` | app.js:269-274 | An entry is in the 28-day window iff it is at most 27 days old, or exactly 28 days old with the clock at midnight. |
| `Trend.Recent` | app.js:272-274 | It keeps exactly the entries inside the window, in their original order: a newest-first store gives a newest-first window. |
| `Trend.RecentConcat` | app.js:272-274 | The window of a concatenation is the two windows in sequence, so every kept entry keeps its position and multiplicity. |
| `Trend.WeeklyAverage` | app.js:266-283 | The average is 0 with fewer than two entries in all or in the window. Otherwise, times the span, it equals 7 × (oldest − newest weight). It is positive iff the newest in-window weight is below the oldest, and negative iff it is above. |
| `Trend.WeeklyAverageOfOrderedEntries` | app.js:266-283 | For a newest-first store with two or more in-window entries, the newest in-window entry is at least a day after the oldest. The average times that day count is 7 × (oldest − newest weight). |
| `Trend.TrendSpanOfOrderedEntries` | app.js:280 | For a newest-first window, the span is the real day count between its ends. |
| `Trend.DaysToGoal` | app.js:285-299 | `'∞'` exactly in the four cases: fewer than 2 entries; a zero trend; a losing trend while below the target; a gaining trend while above it. Otherwise n is the least day count with n × \|weekly rate\| ≥ 7 × \|current − target\|. |
| `Trend.DaysToGoalCovers` | app.js:297-298 | `ceil(\|gap / rate\| × 7)` covers the gap at the rate, and one day fewer does not. |
| `Trend.ConvergingTrendIsFinite` | app.js:285-299 | A trend heading towards the target always gives a finite day count. |
| `EmpiricalTdee.WithCalories` | app.js:302 | It keeps exactly the entries with a positive intake. |
| `EmpiricalTdee.AnalysisWindow` | app.js:312-313 | The window has min(30, n) entries, sorted oldest first, all with intakes, drawn from the calorie entries. Every calorie entry dated after the window's start is inside the window. |
| `EmpiricalTdee.TotalCalories` | app.js:330 | The sum of intakes over entries that all logged one is at least the number of entries. |
| `EmpiricalTdee.TotalCaloriesConcat` | app.js:330 | The total over a concatenation is the sum of the two totals. |
| `EmpiricalTdee.TotalCaloriesPermutation` | app.js:330 | Two lists with the same entries, in any order, have the same total, so re-sorting the window does not change it. |
| `EmpiricalTdee.AverageCalories` | app.js:331 | The average times the number of entries is the total intake. |
| `EmpiricalTdee.WeightChange` | app.js:320-322 | The first weight plus the change is the last weight. |
| `EmpiricalTdee.WeightChangeTelescopes` | app.js:320-322 | The change equals the sum of the day-to-day weight differences across the window, so only the window's two ends matter. |
| `EmpiricalTdee.DaysDiff` | app.js:325-327 | The period is the day count from the window's first to its last entry when that is at least 1, and 1 otherwise. |
| `EmpiricalTdee.TdeeAsWritten` | app.js:334-335 | As written: (estimate − intake) × days equals weight change × 7700. |
| `EmpiricalTdee.AsWrittenInvertsEnergyBalance` | app.js:334-335 | As written, a weight loss puts the estimate below the intake and a gain puts it above. |
| `EmpiricalTdee.AsWrittenExample` | app.js:334-335 | Intake 2000, −1.5 kg over 20 days: 1422.5 as written, 2577.5 by energy balance. |
| `EmpiricalTdee.TdeeFromBalance` | app.js:334-335 | Corrected: (intake − estimate) × days equals weight change × 7700. A loss puts the estimate above the intake, a gain below, and no change leaves them equal. |
| `EmpiricalTdee.EstimatedTdee` | app.js:334-335 | As written, (estimate − average intake) × days equals weight change × 7700. With the corrected formula, (average intake − estimate) × days equals it. |
| `EmpiricalTdee.FormulasAgreeOnlyWithoutWeightChange` | app.js:334-335 | The as-written and corrected estimates of a window coincide exactly when the window's weight change is 0. |
| `EmpiricalTdee.FormulaChangesConfidence` | app.js:334-344 | Intake 1500, −3 kg over 20 days, 21 points: 345 kcal/day with low confidence as written, and 2655 kcal/day with high confidence by energy balance. |
| `EmpiricalTdee.ConfidenceFor` | app.js:338-344 | `High` iff at least 21 points and the estimate is in [1200, 4000]. `Medium` iff 14–20 points and in band. `Low` otherwise. |
| `EmpiricalTdee.RealTdee` | app.js:301-354 | No estimate exactly when fewer than 7 entries log calories, and then the reason is insufficient data with confidence low. The too-short-period branch never fires. dataPoints = min(30, n), between 7 and 30. The confidence follows the band rules on the unrounded estimate, and the reported TDEE is that estimate rounded. `weightChange` is the window's weight change, `daysPeriod` the period rounded, and `avgCalories` the average intake rounded. All of this holds for both formulas. `AsWritten` is the engine's computation, and `EnergyBalance` corrects the sign of the weight term (see Findings). |
| `EmpiricalTdee.EntriesWithoutCaloriesIgnored` | app.js:302 | Inserting an entry without a positive intake anywhere leaves the report unchanged, for either formula. |
| `EmpiricalTdee.OnlyCalorieEntriesMatter` | app.js:302 | The report on the calorie entries alone equals the report on all entries, for either formula. |
| `EmpiricalTdee.TooFewCaloriesNoEstimate` | app.js:304-310 | With fewer than 7 calorie entries the TDEE is null and the confidence low, whatever the weights. |
| `EmpiricalTdee.AsWrittenReportInvertsBalance` | app.js:320-335 | With at least 7 calorie entries the engine's report has an estimate, and a weight loss over the window puts the estimate below the average intake, and a gain puts it above. |
| `EmpiricalTdee.CorrectedReportFollowsBalance` | app.js:320-335 | With at least 7 calorie entries the corrected report has an estimate, and a loss puts the estimate above the average intake, a gain below it, and no change leaves it equal. |
| `Adaptation.AdaptationOf` | app.js:373-376 | A zero prediction gives ±∞ by the sign of the measured TDEE. For a positive prediction, p × prediction brackets (measured − prediction) × 100 within half a prediction, and p's sign agrees with measured − prediction (p may round to 0). For a negative prediction the bracket holds with its sides flipped. |
| `Adaptation.PercentBracketsNegative` | app.js:374-376 | The same bounds for a negative prediction, flipped by the negative factor. |
| `Adaptation.PercentBrackets` | app.js:374-376 | The rounding bounds on the percentage, multiplied out by a positive prediction. |
| `Adaptation.TheoreticalTdee` | app.js:365-371 | The prediction is the BMR times the activity factor. Via `TheoreticalTdeeScales`, each extra kg adds 10 × the factor, and `'masculino'` adds 166 × the factor. |
| `Adaptation.TheoreticalTdeeScales` | app.js:365-371 | Each extra kilogram raises the prediction by 10 × the activity factor, and `'masculino'` exceeds any other tag by 166 × the activity factor. |
| `Adaptation.MetabolicAdaptation` | app.js:356-376 | `null` exactly when: there is no estimate; the estimate rounds to 0; there is no profile; or the newest weight is 0. Otherwise the result is finite iff the prediction (BMR of the newest weight × activity factor) is non-zero, and with a positive prediction its sign matches measured − predicted. The value is exactly `AdaptationOf` of the reported TDEE and the prediction, so it is the rounded percentage, or the infinity whose sign matches the measured TDEE. With the `AsWritten` formula the measured TDEE is the engine's. |
| `Adaptation.NoAdaptationWithoutEstimate` | app.js:357-359 | Fewer than 7 calorie entries always give `null`, for either formula. |
| `Adaptation.MatchingTdeeIsZero` | app.js:374-376 | A measured TDEE equal to the prediction gives 0 %. |
| `Adaptation.AdaptationExample` | app.js:374-376 | 1800 against 2000 gives −10 %, and 2300 against 2000 gives 15 %. |
| `Plan.ForecastFor` | app.js:881-900 | Loss iff current > target. Target calories are TDEE ∓ deficit. The real daily deficit is \|deficit\|. The weekly change has the goal's sign, and \|change\| × 7700 = 7 × \|deficit\|. Weeks exist iff the deficit is non-zero. Following the weekly change for that many weeks lands exactly on the target. Months × 4.33 = weeks, and the day offset is weeks × 7 rounded. |
| `Plan.ClosesGap` | app.js:893-894 | Moving at the rate in the goal's direction for \|gap\|/rate weeks reaches the target. |
| `Plan.PlanFromForm` | app.js:851-902 | Missing fields exactly when any of current weight, target weight, height or age is empty or 0. The goal counts as reached only within 0.1 kg. For a projection: the TDEE is the BMR of the current weight times the activity factor; the forecast is `ForecastFor` of that TDEE, the deficit and the two weights; each BMI times the squared height equals its weight; the direction is set by current vs target; and the forecast reaches the target. |
| `Plan.GoalReachedExactly` | app.js:902 | For a filled-in form, the goal is reached iff the weights are less than 0.1 kg apart. |
| `Plan.ForecastExample` | app.js:881-900 | TDEE 2500, deficit 500, 90 → 80 kg: 2000 kcal, 22 weeks, 154 days. |
| `Plan.ZeroDeficitHasNoDuration` | app.js:888-894 | A zero deficit leaves the target calories at the TDEE and gives no duration. |
| `Macros.MacroPercentages` | app.js:1262-1271 | Every split sums to 100 and gives protein at least 30 %. An unknown style gives the balanced split. Only keto has carbohydrate under 10 %. |
| `Macros.KnownStylesDistinct` | app.js:1262-1271 | The four named styles have four different splits. |
| `Insights.DeficitBandOf` | app.js:390-398 | The deficit bands are ≤ 300, (300, 500], (500, 700] and > 700, each an iff. |
| `Insights.HorizonOf` | app.js:401-407 | The horizon bands are < 8, [8, 16) and ≥ 16 weeks, each an iff. |
| `Insights.WarningMatchesBands` | app.js:381 | The warning's deficit threshold is exactly the top deficit band: the warning holds iff the deficit is very aggressive or the goal is under 4 weeks away. |
| `Insights.ImcRemark` | app.js:410-416 | There is no BMI remark exactly for a normal BMI; otherwise the remark is the BMI category. |
| `Insights.CompareTdeeAsWritten` | app.js:421-429 | As written: aligned iff \|diff\| < 100, higher iff diff > 100, lower otherwise. |
| `Insights.AsWrittenCallsHigherLower` | app.js:423-428 | As written, a measured 2100 against a predicted 2000 is reported as lower. |
| `Insights.CompareTdee` | app.js:421-429 | Corrected: aligned iff \|diff\| < 100, higher iff diff ≥ 100, lower iff diff ≤ −100. |
| `Insights.VerdictAgreesWithSign` | app.js:423-428 | The corrected verdict never contradicts the sign of the difference. |
| `Insights.CorrectionOnlyAtBoundary` | app.js:423-428 | The corrected and as-written verdicts differ exactly when diff is +100. |
| `Insights.AlertOf` | app.js:431-436 | The possible-adaptation alert holds iff the percentage is below −10 or −∞. The fast-metabolism alert holds iff it is above 10 or +∞. |
| `Insights.AlertAgreesWithMeasurement` | app.js:431-436 | With a positive prediction, the adaptation alert implies a measured TDEE below the prediction, and the fast-metabolism alert one above it. |
| `Insights.TheoreticalRemarkOf` | app.js:441-445 | High expenditure iff TDEE > 2500, low iff TDEE < 1800. |

## Left out

- The SQLite branches of `DataManager` and all of `DatabaseManager`. They are foreign-library calls and persistence.
- `getWeightEntries` and JSON (de)serialisation. The store is the sequence itself.
- `UIManager`, `ChartManager` and the DOM and event parts of `AppController`. They are presentation only.
- The insight texts, the HTML of `gerarInsights`, and its own storage reads. Only its thresholds are modelled, in `Insights`.
- `calculateIdealWeightRange`. It is string formatting over the four formulas, always called with `'masculino'`.
- The `timestamp` written with each saved entry. It is never read by the core.
- `toFixed`, `toLocaleDateString`, CSV export, and JavaScript `Date` parsing and time zones. `EmpiricalTdee.RealTdee` reports `weightChange` as the unrounded real rather than a two-decimal string.
- IEEE-754 behaviour: `NaN` from unparsable inputs, and rounding error. Empty or unparsable fields are `None`. An `activity_level` missing from the profile, which makes the adaptation `NaN`, is not modelled.
- `BodyMetrics.Imc`: requires a non-zero height. JavaScript would return `Infinity` or `NaN`; every caller in the model validates the height first.
- `Macros.MacroPercentages`: style names that are keys of `Object.prototype` (such as `"constructor"`) are treated as unknown. JavaScript would return the inherited value.
- `Plan.ForecastFor`: a zero deficit makes the weeks `Infinity`, or `NaN` when the weights are equal, in JavaScript. The model gives `None` for the weeks, months and day offset instead.
- `Plan.PlanFromForm`: the projected date is represented only by its day offset, because the wall clock is not modelled.

## Findings

| source | as written | input that shows it | evidently intended | confidence | as-written member | corrected member |
|---|---|---|---|---|---|---|
| app.js:334-335 | the TDEE estimate is intake **plus** weight change × 7700 / days | 21 daily logs of 2000 kcal while going from 80.0 to 78.5 kg over 20 days: the estimate is 1422.5 kcal/day, below the intake, although weight was lost | energy balance: expenditure is intake **minus** the energy stored as weight change, per day, which gives 2577.5 kcal/day | high (not executed) | `EmpiricalTdee.AsWrittenReportInvertsBalance` | `EmpiricalTdee.CorrectedReportFollowsBalance` |
| app.js:423-428 | `abs(diff) < 100` is aligned, `diff > 100` is higher, anything else is lower | a measured TDEE of 2100 against a predicted 2000.0 is reported as 100 kcal **lower** | a difference of exactly +100 reported as higher | medium (not executed) | `Insights.AsWrittenCallsHigherLower` | `Insights.VerdictAgreesWithSign` |

`EmpiricalTdee.RealTdee` and, through it, `Adaptation.MetabolicAdaptation` take
the estimate formula as a parameter:

- `AsWritten` (`TdeeAsWritten`) reproduces the engine.
- `EnergyBalance` (`TdeeFromBalance`) is the corrected estimate.

The window, data-point and confidence-band contracts hold for both.
`Insights.CompareTdee` is the corrected comparison, and
`Insights.CompareTdeeAsWritten` is the comparison as written.

=== FILE: adaptation.dfy ===
/** `calculateMetabolicAdaptation`: how far the empirical TDEE sits above or
    below the Mifflin-St Jeor prediction for the newest weight, in percent. */
module Adaptation {
  import opened Wrappers
  import opened Numeric
  import opened Entries
  import opened BodyMetrics
  import opened EmpiricalTdee

  /** A rounded percentage, or the infinity JavaScript produces when the
      predicted TDEE is 0 (`Math.round(±Infinity)` is `±Infinity`). */
  datatype AdaptationPercent = Percent(p: int) | PlusInfinity | MinusInfinity

  /** BMR for the given weight and the profile's data, times the activity
      factor. */
  function TheoreticalTdee(weight: real, profile: Profile): real {
    Bmr(weight, profile.height, profile.age, profile.gender) * profile.activityFactor
  }

  /** Each extra kilogram of current weight raises the prediction by ten
      times the activity factor, and a man's prediction exceeds anyone
      else's by 166 times the activity factor. */
  lemma TheoreticalTdeeScales(weight: real, dw: real, profile: Profile)
    ensures TheoreticalTdee(weight + dw, profile) == TheoreticalTdee(weight, profile) + 10.0 * dw * profile.activityFactor
    ensures profile.gender != MALE ==>
              TheoreticalTdee(weight, profile.(gender := MALE)) - TheoreticalTdee(weight, profile)
              == 166.0 * profile.activityFactor
  {
  }

  /** `Math.round(((realTdee - theoretical) / theoretical) * 100)`. Rounded
      percentages above 0 mean the measured TDEE is higher, below 0 lower;
      a measured TDEE within half a percent of the prediction may round to 0. */
  function AdaptationOf(realTdee: int, theoretical: real): (r: AdaptationPercent)
    requires realTdee != 0
    ensures r == PlusInfinity <==> theoretical == 0.0 && realTdee > 0
    ensures r == MinusInfinity <==> theoretical == 0.0 && realTdee < 0
    ensures r.Percent? && theoretical > 0.0 ==>
              var gap := (realTdee as real - theoretical) * 100.0;
              && (r.p as real - 0.5) * theoretical <= gap
              && gap < (r.p as real + 0.5) * theoretical
    ensures r.Percent? && theoretical > 0.0 ==>
              && (r.p > 0 ==> realTdee as real > theoretical)
              && (r.p < 0 ==> realTdee as real < theoretical)
              && (realTdee as real > theoretical ==> r.p >= 0)
              && (realTdee as real < theoretical ==> r.p <= 0)
    ensures r.Percent? && theoretical < 0.0 ==>
              var gap := (realTdee as real - theoretical) * 100.0;
              && (r.p as real + 0.5) * theoretical < gap
              && gap <= (r.p as real - 0.5) * theoretical
  {
    if theoretical == 0.0 then
      if realTdee > 0 then PlusInfinity else MinusInfinity
    else
      var x := ((realTdee as real - theoretical) / theoretical) * 100.0;
      var p := Round(x);
      if theoretical > 0.0 then
        PercentBrackets(realTdee as real, theoretical, p);
        Percent(p)
      else
        PercentBracketsNegative(realTdee as real, theoretical, p);
        Percent(p)
  }

  /** The rounding bounds on the percentage, multiplied out by a positive
      prediction. */
  lemma PercentBrackets(measured: real, theoretical: real, p: int)
    requires theoretical > 0.0
    requires p == Round(((measured - theoretical) / theoretical) * 100.0)
    ensures (p as real - 0.5) * theoretical <= (measured - theoretical) * 100.0
    ensures (measured - theoretical) * 100.0 < (p as real + 0.5) * theoretical
  {
    var x := ((measured - theoretical) / theoretical) * 100.0;
    assert x * theoretical == (measured - theoretical) * 100.0;
    HalfUnitCovers(x, theoretical, (measured - theoretical) * 100.0, p as real);
  }

  /** The same bounds for a negative prediction, where multiplying out flips
      them. */
  lemma PercentBracketsNegative(measured: real, theoretical: real, p: int)
    requires theoretical < 0.0
    requires p == Round(((measured - theoretical) / theoretical) * 100.0)
    ensures (p as real + 0.5) * theoretical < (measured - theoretical) * 100.0
    ensures (measured - theoretical) * 100.0 <= (p as real - 0.5) * theoretical
  {
    var x := ((measured - theoretical) / theoretical) * 100.0;
    var gap := (measured - theoretical) * 100.0;
    var lo, hi, c := p as real - 0.5, p as real + 0.5, -theoretical;
    assert x * theoretical == gap;
    assert x * c == -gap;
    HalfUnitCovers(x, c, -gap, p as real);
    assert lo * c == -(lo * theoretical);
    assert hi * c == -(hi * theoretical);
  }

  /** `calculateMetabolicAdaptation` (the engine's behaviour with the
      `AsWritten` formula): `None` (JavaScript `null`) when there is
      no estimate, the estimate rounds to 0, there is no profile, or the
      newest entry has weight 0; otherwise the percentage against the
      prediction for the newest entry's weight. */
  function MetabolicAdaptation(entries: seq<Entry>, profile: Option<Profile>, formula: Formula): (r: Option<AdaptationPercent>)
    ensures r.None? <==>
              || RealTdee(entries, formula).NoEstimate?
              || RealTdee(entries, formula).tdee == 0
              || profile.None?
              || entries[0].weight == 0.0
    ensures r.Some? ==>
              var measured := RealTdee(entries, formula).tdee;
              var theoretical := TheoreticalTdee(entries[0].weight, profile.value);
              && (r.value.Percent? <==> theoretical != 0.0)
              && (theoretical > 0.0 ==>
                    && (r.value.p > 0 ==> measured as real > theoretical)
                    && (r.value.p < 0 ==> measured as real < theoretical)
                    && (measured as real > theoretical ==> r.value.p >= 0)
                    && (measured as real < theoretical ==> r.value.p <= 0))
    ensures r.Some? ==>
              r.value == AdaptationOf(RealTdee(entries, formula).tdee, TheoreticalTdee(entries[0].weight, profile.value))
  {
    var report := RealTdee(entries, formula);
    if report.NoEstimate? || report.tdee == 0 || profile.None? then None
    else
      var currentWeight := entries[0].weight;
      if currentWeight == 0.0 then None
      else
        var theoretical := TheoreticalTdee(currentWeight, profile.value);
        Some(AdaptationOf(report.tdee, theoretical))
  }

  /** Without seven logged intakes there is never an adaptation figure. */
  lemma NoAdaptationWithoutEstimate(entries: seq<Entry>, profile: Option<Profile>, formula: Formula)
    requires |WithCalories(entries)| < MIN_DAYS_FOR_TDEE
    ensures MetabolicAdaptation(entries, profile, formula) == None
  {
  }

  /** A measured TDEE matching the prediction exactly gives 0%. */
  lemma MatchingTdeeIsZero(realTdee: int, theoretical: real)
    requires realTdee != 0 && realTdee as real == theoretical
    ensures AdaptationOf(realTdee, theoretical) == Percent(0)
  {
  }

  /** 1800 measured against 2000 predicted is 10% below. */
  lemma AdaptationExample()
    ensures AdaptationOf(1800, 2000.0) == Percent(-10)
    ensures AdaptationOf(2300, 2000.0) == Percent(15)
  {
  }
}

=== FILE: body_metrics.dfy ===
/** Closed-form anthropometric formulas: Mifflin-St Jeor BMR, BMI and its
    category bands, and the four ideal-weight formulas. */
module BodyMetrics {
  import opened Numeric
  import opened Entries

  /** Mifflin-St Jeor basal metabolic rate in kcal/day. Only the exact tag
      `"masculino"` takes the male constant; every other tag, valid or not,
      takes the female one. */
  function Bmr(weight: real, height: real, age: int, gender: string): real {
    if gender == MALE then
      10.0 * weight + 6.25 * height - 5.0 * (age as real) + 5.0
    else
      10.0 * weight + 6.25 * height - 5.0 * (age as real) - 161.0
  }

  /** For equal measurements, the male branch exceeds every other tag by
      exactly 166 kcal/day. */
  lemma BmrMaleGap(weight: real, height: real, age: int, other: string)
    requires other != MALE
    ensures Bmr(weight, height, age, MALE) - Bmr(weight, height, age, other) == 166.0
  {
  }

  /** BMR grows by 10 per kg and 6.25 per cm and falls by 5 per year of age,
      on either branch. */
  lemma BmrLinear(weight: real, height: real, age: int, gender: string, dw: real, dh: real, da: int)
    ensures Bmr(weight + dw, height + dh, age + da, gender)
            == Bmr(weight, height, age, gender) + 10.0 * dw + 6.25 * dh - 5.0 * (da as real)
  {
  }

  /** 70 kg, 175 cm, 30 years: 1648.75 kcal/day for a man, 1482.75 otherwise. */
  lemma BmrExample()
    ensures Bmr(70.0, 175.0, 30, MALE) == 1648.75
    ensures Bmr(70.0, 175.0, 30, "feminino") == 1482.75
  {
  }

  lemma SquareNonZero(x: real)
    requires x != 0.0
    ensures x * x != 0.0
  {
  }

  /** Body-mass index, kg per square metre, from a height in centimetres. */
  function Imc(weight: real, height: real): (r: real)
    requires height != 0.0
    ensures r * ((height / 100.0) * (height / 100.0)) == weight
  {
    var m := height / 100.0;
    SquareNonZero(m);
    weight / (m * m)
  }

  /** 70 kg at 175 cm is about 22.86. */
  lemma ImcExample()
    ensures 22.85 < Imc(70.0, 175.0) < 22.86
  {
  }

  datatype ImcCategory = Underweight | NormalWeight | Overweight | Obese {
    /** Position in the order of the bands. */
    function Rank(): nat {
      match this
      case Underweight => 0
      case NormalWeight => 1
      case Overweight => 2
      case Obese => 3
    }
  }

  /** `getIMCCategory`: the band the index falls in, each band closed below. */
  function Category(imc: real): (r: ImcCategory)
    ensures r == Underweight <==> imc < 18.5
    ensures r == NormalWeight <==> 18.5 <= imc < 25.0
    ensures r == Overweight <==> 25.0 <= imc < 30.0
    ensures r == Obese <==> 30.0 <= imc
  {
    if imc < 18.5 then Underweight
    else if imc < 25.0 then NormalWeight
    else if imc < 30.0 then Overweight
    else Obese
  }

  /** A larger index never falls in a lower band. */
  lemma CategoryMonotone(a: real, b: real)
    requires a <= b
    ensures Category(a).Rank() <= Category(b).Rank()
  {
  }

  datatype IdealWeightFormula = Hamwi | Devine | Robinson | Miller

  /** Weight at 60 inches (152.4 cm), per formula and sex. */
  function BaseWeight(f: IdealWeightFormula, gender: string): real {
    var male := gender == MALE;
    match f
    case Hamwi => if male then 48.0 else 45.5
    case Devine => if male then 50.0 else 45.5
    case Robinson => if male then 52.0 else 49.0
    case Miller => if male then 56.2 else 53.1
  }

  /** Weight added per inch above 60, per formula and sex. */
  function IncrementPerInch(f: IdealWeightFormula, gender: string): (r: real)
    ensures r > 0.0
  {
    var male := gender == MALE;
    match f
    case Hamwi => if male then 2.7 else 2.2
    case Devine => 2.3
    case Robinson => if male then 1.9 else 1.7
    case Miller => if male then 1.41 else 1.36
  }

  /** `calculateHamwi` / `calculateDevine` / `calculateRobinson` /
      `calculateMiller`: a linear function of the height in inches past 60,
      rounded to a whole kilogram. */
  function IdealWeight(f: IdealWeightFormula, height: real, gender: string): (r: int)
    ensures var exact := BaseWeight(f, gender) + (height / 2.54 - 60.0) * IncrementPerInch(f, gender);
            exact - 0.5 < r as real <= exact + 0.5
  {
    Round(BaseWeight(f, gender) + (height / 2.54 - 60.0) * IncrementPerInch(f, gender))
  }

  /** At exactly 60 inches each formula gives its base weight, rounded. */
  lemma IdealWeightAtSixtyInches(f: IdealWeightFormula, gender: string)
    ensures IdealWeight(f, 152.4, gender) == Round(BaseWeight(f, gender))
  {
    assert 152.4 / 2.54 == 60.0;
  }

  /** A taller person never gets a lower ideal weight from the same formula. */
  lemma IdealWeightMonotone(f: IdealWeightFormula, h1: real, h2: real, gender: string)
    requires h1 <= h2
    ensures IdealWeight(f, h1, gender) <= IdealWeight(f, h2, gender)
  {
    var inc := IncrementPerInch(f, gender);
    var x1 := BaseWeight(f, gender) + (h1 / 2.54 - 60.0) * inc;
    var x2 := BaseWeight(f, gender) + (h2 / 2.54 - 60.0) * inc;
    assert h1 / 2.54 <= h2 / 2.54;
    assert (h2 / 2.54 - 60.0) * inc - (h1 / 2.54 - 60.0) * inc == (h2 / 2.54 - h1 / 2.54) * inc;
    assert x1 <= x2;
    FloorMonotone(x1 + 0.5, x2 + 0.5);
  }

  lemma FloorMonotone(a: real, b: real)
    requires a <= b
    ensures a.Floor <= b.Floor
  {
  }
}

=== FILE: entries.dfy ===
/** The records the engine computes over.

    Dates are whole day numbers (days since the epoch, at UTC midnight, which
    is where `new Date('YYYY-MM-DD')` puts them); the wall clock is a real
    number of days since the same epoch, so its fractional part is the time of
    day. Weights are kilograms and energies kilocalories, as exact reals. */
module Entries {
  import opened Wrappers

  /** One day's log line. `calories` is `None` when the field is `null` or
      absent; the activity tag and the note are informational only. */
  datatype Entry = Entry(
    date: int,
    weight: real,
    calories: Option<int>,
    activity: Option<string>,
    notes: Option<string>)

  /** The stored user profile (one row of the `user_profile` table). */
  datatype Profile = Profile(
    height: real,
    age: int,
    gender: string,
    targetWeight: real,
    activityFactor: real,
    deficitStrategy: int)

  /** The only gender tag that selects the male Mifflin-St Jeor constant. */
  const MALE: string := "masculino"

  /** Energy stored in one kilogram of body fat. */
  const CALORIES_PER_KG: real := 7700.0

  /** `e.calories && e.calories > 0`: the entry logged a positive intake. */
  predicate HasCalories(e: Entry) {
    e.calories.Some? && e.calories.value > 0
  }

  /** The logged intake, 0 when none was logged. */
  function CaloriesOf(e: Entry): int {
    e.calories.GetOr(0)
  }

  /** Sort key for oldest-first order. */
  function DateKey(e: Entry): int {
    e.date
  }

  /** Sort key for newest-first order. */
  function NewestFirstKey(e: Entry): int {
    -e.date
  }

  /** The store's invariant: strictly newest first, hence one entry per date. */
  predicate NewestFirst(s: seq<Entry>) {
    forall i, j :: 0 <= i < j < |s| ==> s[i].date > s[j].date
  }
}

=== FILE: entry_store.dfy ===
/** The `localStorage` fallback of `DataManager`: the stored entry list is an
    immutable sequence, and saving or deleting returns the new list. The
    list the store writes back is always newest first. */
module EntryStore {
  import opened Wrappers
  import opened Entries
  import opened Seqs
  import opened StableSort

  /** The fields of the daily-entry form as handed to `saveDailyEntry`;
      `None` is an empty or missing field. */
  datatype EntryForm = EntryForm(
    date: Option<int>,
    weight: Option<real>,
    calories: Option<int>,
    activity: Option<string>,
    notes: Option<string>)

  /** The error `saveDailyEntry` throws when the weight or the date is missing. */
  datatype StoreError = MissingWeightOrDate

  /** No two entries share a date. */
  predicate UniqueDates(s: seq<Entry>) {
    forall i, j :: 0 <= i < j < |s| ==> s[i].date != s[j].date
  }

  predicate HasDate(s: seq<Entry>, d: int) {
    exists i :: 0 <= i < |s| && s[i].date == d
  }

  /** `entries.findIndex(e => e.date === d)`: the first position dated `d`. */
  function FindIndex(s: seq<Entry>, d: int): (r: Option<nat>)
    ensures r.Some? ==> r.value < |s| && s[r.value].date == d
    ensures r.Some? ==> forall j :: 0 <= j < r.value ==> s[j].date != d
    ensures r.None? <==> !HasDate(s, d)
  {
    if |s| == 0 then None
    else if s[0].date == d then Some(0)
    else
      match FindIndex(s[1..], d)
      case Some(i) => Some(i + 1)
      case None => None
  }

  /** The entry stored for date `d`, if any. */
  function Lookup(s: seq<Entry>, d: int): Option<Entry> {
    match FindIndex(s, d)
    case Some(i) => Some(s[i])
    case None => None
  }

  /** Overwrites the first entry dated like `e`, or appends `e`. */
  function Upsert(s: seq<Entry>, e: Entry): (r: seq<Entry>)
    ensures e in r
    ensures forall x: Entry :: x.date != e.date ==> (x in r <==> x in s)
    ensures |r| == if HasDate(s, e.date) then |s| else |s| + 1
    ensures UniqueDates(s) ==> UniqueDates(r)
  {
    match FindIndex(s, e.date)
    case Some(i) =>
      var r := s[i := e];
      assert r[i] == e;
      assert forall x: Entry :: x.date != e.date && x in s ==> x in r by {
        forall x: Entry | x.date != e.date && x in s
          ensures x in r
        {
          var k :| 0 <= k < |s| && s[k] == x;
          assert r[k] == x;
        }
      }
      r
    case None => s + [e]
  }

  /** The fallback branch of `saveDailyEntry` once the form is accepted:
      replace or append, then sort newest first. */
  function SaveEntry(s: seq<Entry>, e: Entry): (r: seq<Entry>)
    ensures e in r
    ensures forall x: Entry :: x.date != e.date ==> (x in r <==> x in s)
    ensures |r| == if HasDate(s, e.date) then |s| else |s| + 1
    ensures SortedBy(r, NewestFirstKey)
    ensures UniqueDates(s) ==> NewestFirst(r)
  {
    var u := Upsert(s, e);
    var r := Sort(u, NewestFirstKey);
    SortMembers(u, NewestFirstKey);
    assert UniqueDates(u) ==> DistinctKeys(u, NewestFirstKey);
    r
  }

  /** `saveDailyEntry` on the fallback store: rejects a form without a weight
      (or with weight 0) or without a date, otherwise saves the entry. */
  function SaveDailyEntry(s: seq<Entry>, form: EntryForm): (r: Result<seq<Entry>, StoreError>)
    ensures r.Failure? <==> form.weight.None? || form.weight.value == 0.0 || form.date.None?
    ensures r.Failure? ==> r.error == MissingWeightOrDate
    ensures r.Success? ==>
              var e := Entry(form.date.value, form.weight.value, form.calories, form.activity, form.notes);
              r.value == SaveEntry(s, e)
  {
    if form.weight.None? || form.weight.value == 0.0 || form.date.None? then
      Failure(MissingWeightOrDate)
    else
      Success(SaveEntry(s, Entry(form.date.value, form.weight.value, form.calories, form.activity, form.notes)))
  }

  /** The fallback branch of `deleteEntry`: drops every entry dated `d`. */
  function DeleteEntry(s: seq<Entry>, d: int): (r: seq<Entry>)
    ensures forall i :: 0 <= i < |r| ==> r[i].date != d
    ensures forall x: Entry :: x in r <==> x in s && x.date != d
    ensures NewestFirst(s) ==> NewestFirst(r)
    ensures !HasDate(s, d) ==> r == s
  {
    var keep := (x: Entry) => x.date != d;
    var r := Filter(s, keep);
    assert NewestFirst(s) ==> NewestFirst(r) by {
      if NewestFirst(s) {
        FilterKeepsOrder(s, keep, (x: Entry, y: Entry) => x.date > y.date);
      }
    }
    assert !HasDate(s, d) ==> r == s by {
      if !HasDate(s, d) {
        FilterKeepsAll(s, keep);
      }
    }
    r
  }

  /** In a newest-first list, an entry is the only one carrying its date. */
  lemma OnlyEntryForItsDate(r: seq<Entry>, e: Entry, x: Entry)
    requires NewestFirst(r)
    requires e in r && x in r && x.date == e.date
    ensures x == e
  {
    var i :| 0 <= i < |r| && r[i] == e;
    var j :| 0 <= j < |r| && r[j] == x;
    assert i == j;
  }

  /** Newest-first lists holding the same entries are the same list. */
  lemma SameEntriesSameList(a: seq<Entry>, b: seq<Entry>)
    requires NewestFirst(a) && NewestFirst(b)
    requires forall x: Entry :: x in a <==> x in b
    ensures a == b
  {
    assert forall i :: 0 <= i < |a| ==> a[i] in b;
    assert forall i :: 0 <= i < |b| ==> b[i] in a;
    StrictlySortedUnique(a, b, NewestFirstKey);
  }

  /** Saving onto a well-formed store yields exactly one entry for the saved
      date, and it is the saved one. */
  lemma SaveKeepsOneEntryPerDate(s: seq<Entry>, e: Entry)
    requires UniqueDates(s)
    ensures NewestFirst(SaveEntry(s, e))
    ensures forall x: Entry :: x in SaveEntry(s, e) && x.date == e.date ==> x == e
    ensures Lookup(SaveEntry(s, e), e.date) == Some(e)
  {
    var r := SaveEntry(s, e);
    forall x: Entry | x in r && x.date == e.date
      ensures x == e
    {
      OnlyEntryForItsDate(r, e, x);
    }
    var k := FindIndex(r, e.date).value;
    OnlyEntryForItsDate(r, e, r[k]);
  }

  /** Saving an entry leaves what the store answers for every other date. */
  lemma SaveKeepsOtherDates(s: seq<Entry>, e: Entry, d: int)
    requires UniqueDates(s)
    requires d != e.date
    ensures Lookup(SaveEntry(s, e), d) == Lookup(s, d)
  {
    var r := SaveEntry(s, e);
    if HasDate(s, d) {
      var i := FindIndex(s, d).value;
      assert s[i] in r;
      var k := FindIndex(r, d).value;
      assert r[k] in s;
      var m :| 0 <= m < |s| && s[m] == r[k];
      assert m == i;
    }
  }

  /** "Nothing else changes": deleting the saved date afterwards gives the
      same list as deleting it from the original store. */
  lemma SaveThenDelete(s: seq<Entry>, e: Entry)
    requires NewestFirst(s)
    ensures DeleteEntry(SaveEntry(s, e), e.date) == DeleteEntry(s, e.date)
  {
    SameEntriesSameList(DeleteEntry(SaveEntry(s, e), e.date), DeleteEntry(s, e.date));
  }

  /** Saving over an existing date is the same as deleting it and saving anew. */
  lemma SaveIsDeleteThenSave(s: seq<Entry>, e: Entry)
    requires NewestFirst(s)
    ensures SaveEntry(s, e) == SaveEntry(DeleteEntry(s, e.date), e)
  {
    var a := SaveEntry(s, e);
    var b := SaveEntry(DeleteEntry(s, e.date), e);
    forall x: Entry
      ensures x in a <==> x in b
    {
      if x.date == e.date {
        if x in a { OnlyEntryForItsDate(a, e, x); }
        if x in b { OnlyEntryForItsDate(b, e, x); }
      }
    }
    SameEntriesSameList(a, b);
  }

  /** Saving the same entry twice is the same as saving it once. */
  lemma SaveIdempotent(s: seq<Entry>, e: Entry)
    requires UniqueDates(s)
    ensures SaveEntry(SaveEntry(s, e), e) == SaveEntry(s, e)
  {
    var a := SaveEntry(s, e);
    var b := SaveEntry(a, e);
    forall x: Entry
      ensures x in a <==> x in b
    {
      if x.date == e.date {
        if x in a { OnlyEntryForItsDate(a, e, x); }
        if x in b { OnlyEntryForItsDate(b, e, x); }
      }
    }
    SameEntriesSameList(a, b);
  }
}

=== FILE: insights.dfy ===
/** The numeric thresholds behind the personalised insights (`gerarInsights`),
    as classifications; the wording and markup are not modelled. */
module Insights {
  import opened Wrappers
  import opened Numeric
  import opened BodyMetrics
  import opened Adaptation

  /** How demanding the chosen daily deficit is. */
  datatype DeficitBand = Conservative | Balanced | Aggressive | VeryAggressive

  function DeficitBandOf(deficit: real): (r: DeficitBand)
    ensures r == Conservative <==> deficit <= 300.0
    ensures r == Balanced <==> 300.0 < deficit <= 500.0
    ensures r == Aggressive <==> 500.0 < deficit <= 700.0
    ensures r == VeryAggressive <==> 700.0 < deficit
  {
    if deficit <= 300.0 then Conservative
    else if deficit <= 500.0 then Balanced
    else if deficit <= 700.0 then Aggressive
    else VeryAggressive
  }

  /** How long the projected journey is. */
  datatype Horizon = ShortTerm | MediumTerm | LongTerm

  function HorizonOf(weeks: real): (r: Horizon)
    ensures r == ShortTerm <==> weeks < 8.0
    ensures r == MediumTerm <==> 8.0 <= weeks < 16.0
    ensures r == LongTerm <==> 16.0 <= weeks
  {
    if weeks < 8.0 then ShortTerm
    else if weeks < 16.0 then MediumTerm
    else LongTerm
  }

  /** The insights box is styled as a warning for a deficit above 700 or a
      goal under four weeks away. */
  predicate IsWarning(deficit: real, weeks: real) {
    deficit > 700.0 || weeks < 4.0
  }

  /** The warning's deficit threshold is exactly the top deficit band: a
      very aggressive deficit or a goal under four weeks always raises the
      warning, and a warning means one of the two. */
  lemma WarningMatchesBands(deficit: real, weeks: real)
    ensures IsWarning(deficit, weeks) <==>
              DeficitBandOf(deficit) == VeryAggressive || weeks < 4.0
  {
  }

  /** The BMI remark: none for a normal index. */
  function ImcRemark(imc: real): (r: Option<ImcCategory>)
    ensures r.None? <==> Category(imc) == NormalWeight
    ensures r.Some? ==> r.value == Category(imc)
  {
    if imc < 18.5 then Some(Underweight)
    else if imc >= 25.0 && imc < 30.0 then Some(Overweight)
    else if imc >= 30.0 then Some(Obese)
    else None
  }

  /** How the measured TDEE compares with the prediction. */
  datatype TdeeVerdict = Aligned | Higher | Lower

  /** The comparison as written: `|diff| < 100` is aligned, `diff > 100` is
      higher, and everything else, including `diff == 100`, is lower. */
  function CompareTdeeAsWritten(realTdee: int, theoretical: real): (r: TdeeVerdict)
    ensures r == Aligned <==> Abs(realTdee as real - theoretical) < 100.0
    ensures r == Higher <==> realTdee as real - theoretical > 100.0
  {
    var diff := realTdee as real - theoretical;
    if Abs(diff) < 100.0 then Aligned
    else if diff > 100.0 then Higher
    else Lower
  }

  /** A measured TDEE exactly 100 kcal above the prediction is reported as
      lower than the prediction. */
  lemma AsWrittenCallsHigherLower()
    ensures CompareTdeeAsWritten(2100, 2000.0) == Lower
  {
  }

  /** The comparison with the boundary on the intended side: a gap of at
      least 100 kcal is higher or lower according to its sign. */
  function CompareTdee(realTdee: int, theoretical: real): (r: TdeeVerdict)
    ensures r == Aligned <==> Abs(realTdee as real - theoretical) < 100.0
    ensures r == Higher <==> realTdee as real - theoretical >= 100.0
    ensures r == Lower <==> realTdee as real - theoretical <= -100.0
  {
    var diff := realTdee as real - theoretical;
    if Abs(diff) < 100.0 then Aligned
    else if diff >= 100.0 then Higher
    else Lower
  }

  /** The corrected verdict never contradicts the sign of the difference. */
  lemma VerdictAgreesWithSign(realTdee: int, theoretical: real)
    ensures CompareTdee(realTdee, theoretical) == Higher ==> realTdee as real > theoretical
    ensures CompareTdee(realTdee, theoretical) == Lower ==> realTdee as real < theoretical
  {
  }

  /** The two comparisons differ only at a gap of exactly +100 kcal. */
  lemma CorrectionOnlyAtBoundary(realTdee: int, theoretical: real)
    ensures CompareTdee(realTdee, theoretical) != CompareTdeeAsWritten(realTdee, theoretical) <==>
              realTdee as real - theoretical == 100.0
  {
  }

  /** The metabolic remark. */
  datatype AdaptationAlert = NoAlert | PossibleAdaptation | FastMetabolism

  /** `adaptation < -10` and `adaptation > 10`, with the infinities on their
      sides of the thresholds. */
  function AlertOf(adaptation: Option<AdaptationPercent>): (r: AdaptationAlert)
    ensures r == PossibleAdaptation <==>
              adaptation.Some? && (adaptation.value == MinusInfinity || (adaptation.value.Percent? && adaptation.value.p < -10))
    ensures r == FastMetabolism <==>
              adaptation.Some? && (adaptation.value == PlusInfinity || (adaptation.value.Percent? && adaptation.value.p > 10))
  {
    match adaptation
    case None => NoAlert
    case Some(MinusInfinity) => PossibleAdaptation
    case Some(PlusInfinity) => FastMetabolism
    case Some(Percent(p)) =>
      if p < -10 then PossibleAdaptation
      else if p > 10 then FastMetabolism
      else NoAlert
  }

  /** With a positive prediction, a possible-adaptation alert means the
      measured TDEE is below the prediction, a fast-metabolism alert that it
      is above. */
  lemma AlertAgreesWithMeasurement(realTdee: int, theoretical: real)
    requires realTdee != 0 && theoretical > 0.0
    ensures AlertOf(Some(AdaptationOf(realTdee, theoretical))) == PossibleAdaptation ==>
              realTdee as real < theoretical
    ensures AlertOf(Some(AdaptationOf(realTdee, theoretical))) == FastMetabolism ==>
              realTdee as real > theoretical
  {
  }

  /** Without a measured TDEE the remark on the predicted TDEE alone. */
  datatype TheoreticalRemark = HighExpenditure | LowExpenditure | NoRemark

  function TheoreticalRemarkOf(tdee: real): (r: TheoreticalRemark)
    ensures r == HighExpenditure <==> tdee > 2500.0
    ensures r == LowExpenditure <==> tdee < 1800.0
  {
    if tdee > 2500.0 then HighExpenditure
    else if tdee < 1800.0 then LowExpenditure
    else NoRemark
  }
}

=== FILE: macros.dfy ===
/** `getMacroPercentages`: the protein / fat / carbohydrate split of each
    named eating style. */
module Macros {

  /** Percentages of the daily calories. */
  datatype MacroSplit = MacroSplit(protein: nat, fat: nat, carb: nat) {
    function Total(): nat {
      protein + fat + carb
    }
  }

  const BALANCED: MacroSplit := MacroSplit(30, 35, 35)
  const LOW_CARB: MacroSplit := MacroSplit(40, 40, 20)
  const HIGH_CARB: MacroSplit := MacroSplit(30, 20, 50)
  const KETO: MacroSplit := MacroSplit(35, 60, 5)

  /** The style names the table knows. */
  predicate KnownStyle(style: string) {
    style == "balanced" || style == "lowcarb" || style == "highcarb" || style == "keto"
  }

  /** `styles[style] || styles.balanced`: the named split, and the balanced
      one for every other name (including `"custom"`). */
  function MacroPercentages(style: string): (r: MacroSplit)
    ensures r.Total() == 100
    ensures !KnownStyle(style) ==> r == BALANCED
    ensures style == "keto" <==> r.carb < 10
    ensures r.protein >= 30
  {
    if style == "balanced" then BALANCED
    else if style == "lowcarb" then LOW_CARB
    else if style == "highcarb" then HIGH_CARB
    else if style == "keto" then KETO
    else BALANCED
  }

  /** Different known styles give different splits, so the lookup never
      silently falls back for a known name. */
  lemma KnownStylesDistinct(a: string, b: string)
    requires KnownStyle(a) && KnownStyle(b) && a != b
    ensures MacroPercentages(a) != MacroPercentages(b)
  {
  }
}

=== FILE: numeric.dfy ===
/** The JavaScript `Math` rounding functions the engine relies on, stated over
    exact reals. `Math.round` rounds halves towards +infinity, which is
    `Floor(x + 0.5)`; `Math.ceil` is `-Floor(-x)`. */
module Numeric {

  /** `Math.round`: the integer nearest to `x`, halves going up. */
  function Round(x: real): (r: int)
    ensures x - 0.5 < r as real <= x + 0.5
  {
    (x + 0.5).Floor
  }

  /** `Math.ceil`: the least integer not below `x`. */
  function Ceil(x: real): (r: int)
    ensures x <= r as real < x + 1.0
  {
    -((-x).Floor)
  }

  /** `Math.abs` on reals. */
  function Abs(x: real): (r: real)
    ensures r >= 0.0
    ensures r == x || r == -x
  {
    if x < 0.0 then -x else x
  }

  /** `Math.max` on reals. */
  function Max(a: real, b: real): (r: real)
    ensures r >= a && r >= b
    ensures r == a || r == b
  {
    if a >= b then a else b
  }

  /** `Math.min` on naturals. */
  function Min(a: nat, b: nat): (r: nat)
    ensures r <= a && r <= b
    ensures r == a || r == b
  {
    if a <= b then a else b
  }

  /** `Math.round` and `Math.ceil` are the identity on integers. */
  lemma RoundingFixesIntegers(n: int)
    ensures Round(n as real) == n
    ensures Ceil(n as real) == n
  {
  }

  /** Scaling by a positive factor keeps the order. */
  lemma MulMonotone(x: real, y: real, a: real)
    requires a > 0.0
    ensures x <= y ==> x * a <= y * a
    ensures x < y ==> x * a < y * a
  {
  }

  /** When `x` units of size `a` make up `t`, `Ceil(x)` whole units cover
      `t` and one unit fewer does not. */
  lemma CeilCovers(x: real, a: real, t: real)
    requires a > 0.0
    requires x * a == t
    ensures Ceil(x) as real * a >= t
    ensures (Ceil(x) - 1) as real * a < t
  {
    var n := Ceil(x);
    MulMonotone(x, n as real, a);
    var m := (n - 1) as real;
    assert m < x;
    MulMonotone(m, x, a);
    assert m * a < t;
  }

  /** When `x` units of size `a` make up `t`, any `r` within half a unit
      of `x` (such as `Round(x)`) gives `r * a` within half of `a` of `t`. */
  lemma HalfUnitCovers(x: real, a: real, t: real, r: real)
    requires a > 0.0
    requires x * a == t
    requires x - 0.5 < r <= x + 0.5
    ensures (r - 0.5) * a <= t
    ensures t < (r + 0.5) * a
  {
    var below, above := x - (r - 0.5), (r + 0.5) - x;
    MulMonotone(0.0, below, a);
    MulMonotone(0.0, above, a);
    assert t - (r - 0.5) * a == below * a;
    assert (r + 0.5) * a - t == above * a;
  }

  /** `|x / a| * |a| == |x|`. */
  lemma AbsQuotient(x: real, a: real)
    requires a != 0.0
    ensures Abs(x / a) * Abs(a) == Abs(x)
  {
    assert (x / a) * a == x;
    if a < 0.0 {
      assert Abs(a) == -a;
      assert (x / a) * (-a) == -x;
      if x / a < 0.0 {
        assert Abs(x / a) * Abs(a) == (-(x / a)) * (-a);
      }
    }
  }
}

=== FILE: plan.dfy ===
/** The projection arithmetic of the calculator form (`calcular`): from the
    predicted TDEE and the chosen daily deficit or surplus to the calorie
    target, the weekly weight change and the time to the target weight. */
module Plan {
  import opened Wrappers
  import opened Numeric
  import opened Entries
  import opened BodyMetrics

  /** Weeks per month used to convert the duration. */
  const WEEKS_PER_MONTH: real := 4.33

  /** Weight differences below this many kilograms count as already there. */
  const GOAL_TOLERANCE_KG: real := 0.1

  /** The calculator inputs; `None` is an empty or unparsable field. */
  datatype PlanForm = PlanForm(
    currentWeight: Option<real>,
    targetWeight: Option<real>,
    height: Option<real>,
    age: Option<int>,
    gender: string,
    dailyDeficit: int,
    activityFactor: real)

  /** A JavaScript-truthy number: present and not 0. */
  predicate Filled(x: Option<real>) {
    x.Some? && x.value != 0.0
  }

  /** The projected figures. `weeks`, `months` and `daysToTarget` are `None`
      when the weekly change is 0 (JavaScript divides by 0 there). */
  datatype Forecast = Forecast(
    isLoss: bool,
    targetCalories: real,
    dailyDelta: real,
    weeklyChange: real,
    weeks: Option<real>,
    months: Option<real>,
    daysToTarget: Option<int>)

  /** The arithmetic of `calcular` for a goal weight different from the
      current one: eat `dailyDeficit` below the TDEE to lose, above it to
      gain, and move `7 * dailyDeficit / 7700` kg per week towards the goal. */
  function ForecastFor(tdee: real, dailyDeficit: int, current: real, target: real): (f: Forecast)
    ensures f.isLoss <==> current > target
    ensures f.targetCalories == if f.isLoss then tdee - dailyDeficit as real else tdee + dailyDeficit as real
    ensures f.dailyDelta == Abs(dailyDeficit as real)
    ensures f.isLoss ==> f.weeklyChange <= 0.0
    ensures !f.isLoss ==> f.weeklyChange >= 0.0
    ensures Abs(f.weeklyChange) * CALORIES_PER_KG == 7.0 * f.dailyDelta
    ensures f.weeks.Some? <==> dailyDeficit != 0
    ensures f.weeks.Some? ==>
              && f.weeks.value >= 0.0
              && current + f.weeklyChange * f.weeks.value == target
              && f.months.Some? && f.months.value * WEEKS_PER_MONTH == f.weeks.value
              && f.daysToTarget == Some(Round(f.weeks.value * 7.0))
  {
    var difference := current - target;
    var isLoss := difference > 0.0;
    var targetCalories := tdee + (if isLoss then -(dailyDeficit as real) else dailyDeficit as real);
    var dailyDelta := Abs(tdee - targetCalories);
    var weeklyRate := (dailyDelta * 7.0) / CALORIES_PER_KG;
    var weeklyChange := if isLoss then -weeklyRate else weeklyRate;
    if weeklyRate == 0.0 then
      Forecast(isLoss, targetCalories, dailyDelta, weeklyChange, None, None, None)
    else
      var weeks := Abs(difference) / weeklyRate;
      ClosesGap(current, target, weeklyRate, isLoss);
      Forecast(isLoss, targetCalories, dailyDelta, weeklyChange,
               Some(weeks), Some(weeks / WEEKS_PER_MONTH), Some(Round(weeks * 7.0)))
  }

  /** Moving at `rate` per week in the goal's direction for
      `|current - target| / rate` weeks lands on the target. */
  lemma ClosesGap(current: real, target: real, rate: real, isLoss: bool)
    requires rate > 0.0
    requires isLoss <==> current - target > 0.0
    ensures Abs(current - target) / rate >= 0.0
    ensures current + (if isLoss then -rate else rate) * (Abs(current - target) / rate) == target
  {
    var q := Abs(current - target) / rate;
    assert rate * q == Abs(current - target);
    MulMonotone(0.0, q, rate);
  }

  /** What the calculator shows. */
  datatype PlanOutcome =
    | MissingFields
    | GoalReached
    | Projected(tdee: real, imcCurrent: real, imcTarget: real, forecast: Forecast)

  /** `calcular` without the page: validate the four required fields, predict
      the TDEE, and either report the goal as reached or project it. */
  function PlanFromForm(form: PlanForm): (r: PlanOutcome)
    ensures r == MissingFields <==>
              || !Filled(form.currentWeight)
              || !Filled(form.targetWeight)
              || !Filled(form.height)
              || form.age.None?
              || form.age.value == 0
    ensures r == GoalReached ==>
              Abs(form.currentWeight.value - form.targetWeight.value) < GOAL_TOLERANCE_KG
    ensures r.Projected? ==>
              var current := form.currentWeight.value;
              var target := form.targetWeight.value;
              var height := form.height.value;
              && Abs(current - target) >= GOAL_TOLERANCE_KG
              && r.tdee == Bmr(current, height, form.age.value, form.gender) * form.activityFactor
              && r.forecast == ForecastFor(r.tdee, form.dailyDeficit, current, target)
              && r.imcCurrent * ((height / 100.0) * (height / 100.0)) == current
              && r.imcTarget * ((height / 100.0) * (height / 100.0)) == target
              && (r.forecast.isLoss <==> current > target)
              && (r.forecast.weeks.Some? ==> current + r.forecast.weeklyChange * r.forecast.weeks.value == target)
  {
    if || !Filled(form.currentWeight) || !Filled(form.targetWeight)
       || !Filled(form.height) || form.age.None? || form.age.value == 0 then
      MissingFields
    else
      var current := form.currentWeight.value;
      var target := form.targetWeight.value;
      var height := form.height.value;
      var tdee := Bmr(current, height, form.age.value, form.gender) * form.activityFactor;
      var imcCurrent := Imc(current, height);
      var imcTarget := Imc(target, height);
      var forecast := ForecastFor(tdee, form.dailyDeficit, current, target);
      if Abs(current - target) < GOAL_TOLERANCE_KG then GoalReached
      else Projected(tdee, imcCurrent, imcTarget, forecast)
  }

  /** The goal counts as reached exactly when the filled-in weights are less
      than 0.1 kg apart. */
  lemma GoalReachedExactly(form: PlanForm)
    requires PlanFromForm(form) != MissingFields
    ensures PlanFromForm(form) == GoalReached <==>
              Abs(form.currentWeight.value - form.targetWeight.value) < GOAL_TOLERANCE_KG
  {
  }

  /** TDEE 2500, deficit 500, 90 kg to 80 kg: eat 2000 kcal and lose
      10/22 kg a week for 22 weeks, i.e. 154 days. */
  lemma ForecastExample()
    ensures var f := ForecastFor(2500.0, 500, 90.0, 80.0);
            && f.isLoss
            && f.targetCalories == 2000.0
            && f.dailyDelta == 500.0
            && f.weeks == Some(22.0)
            && f.daysToTarget == Some(154)
  {
    var f := ForecastFor(2500.0, 500, 90.0, 80.0);
    assert (500.0 * 7.0) / CALORIES_PER_KG == 5.0 / 11.0;
    assert 10.0 / (5.0 / 11.0) == 22.0;
    RoundingFixesIntegers(154);
  }

  /** A zero deficit gives no duration, for either direction. */
  lemma ZeroDeficitHasNoDuration(tdee: real, current: real, target: real)
    ensures ForecastFor(tdee, 0, current, target).weeks == None
    ensures ForecastFor(tdee, 0, current, target).targetCalories == tdee
  {
  }
}

=== FILE: real_tdee.dfy ===
/** `calculateRealTDEE`: total daily energy expenditure inferred from logged
    intake and the observed weight change over the most recent logged days,
    with a confidence label. */
module EmpiricalTdee {
  import opened Wrappers
  import opened Numeric
  import opened Entries
  import opened Seqs
  import opened StableSort

  const MIN_DAYS_FOR_TDEE: nat := 7
  const MEDIUM_DAYS_FOR_TDEE: nat := 14
  const IDEAL_DAYS_FOR_TDEE: nat := 21
  const MAX_ANALYSIS_DAYS: nat := 30
  const REASONABLE_TDEE_MIN: real := 1200.0
  const REASONABLE_TDEE_MAX: real := 4000.0

  datatype Confidence = Low | Medium | High

  /** Why no estimate was produced. */
  datatype Reason = InsufficientData | PeriodTooShort

  /** The object `calculateRealTDEE` returns: either `tdee: null` with a
      reason (and confidence `'low'`), or the estimate and its figures. */
  datatype TdeeReport =
    | NoEstimate(reason: Reason)
    | Estimate(
        tdee: int,
        confidence: Confidence,
        weightChange: real,
        daysPeriod: int,
        avgCalories: int,
        dataPoints: nat)
  {
    /** The `confidence` field: always `Low` when there is no estimate. */
    function Level(): Confidence {
      if NoEstimate? then Low else confidence
    }

    /** The `tdee` field, `None` for `null`. */
    function Tdee(): Option<int> {
      if NoEstimate? then None else Some(tdee)
    }
  }

  /** The entries that logged a positive intake, in their original order. */
  function WithCalories(entries: seq<Entry>): (r: seq<Entry>)
    ensures |r| <= |entries|
    ensures forall i :: 0 <= i < |r| ==> HasCalories(r[i]) && r[i] in entries
    ensures forall i :: 0 <= i < |entries| && HasCalories(entries[i]) ==> entries[i] in r
  {
    Filter(entries, HasCalories)
  }

  /** The calorie-bearing entries sorted oldest first, cut to the most recent
      `min(30, n)` of them (`slice(-Math.min(30, n))`). */
  function AnalysisWindow(entries: seq<Entry>): (w: seq<Entry>)
    ensures |w| == Min(MAX_ANALYSIS_DAYS, |WithCalories(entries)|)
    ensures SortedBy(w, DateKey)
    ensures forall i :: 0 <= i < |w| ==> HasCalories(w[i])
    ensures multiset(w) <= multiset(WithCalories(entries))
    ensures forall e: Entry :: e in WithCalories(entries) && |w| > 0 && e.date > w[0].date ==> e in w
  {
    var cal := WithCalories(entries);
    var sorted := Sort(cal, DateKey);
    var cut := |sorted| - Min(MAX_ANALYSIS_DAYS, |sorted|);
    WindowFacts(cal, cut);
    sorted[cut..]
  }

  lemma WindowFacts(cal: seq<Entry>, cut: nat)
    requires forall i :: 0 <= i < |cal| ==> HasCalories(cal[i])
    requires cut <= |cal|
    ensures var w := Sort(cal, DateKey)[cut..];
            && SortedBy(w, DateKey)
            && (forall i :: 0 <= i < |w| ==> HasCalories(w[i]))
            && multiset(w) <= multiset(cal)
            && forall e: Entry :: e in cal && |w| > 0 && e.date > w[0].date ==> e in w
  {
    var sorted := Sort(cal, DateKey);
    var w := sorted[cut..];
    SuffixMultiset(sorted, cut);
    forall i | 0 <= i < |w|
      ensures HasCalories(w[i])
    {
      assert w[i] in multiset(cal);
    }
    forall e: Entry | e in cal && |w| > 0 && e.date > w[0].date
      ensures e in w
    {
      assert e in multiset(sorted);
      LaterEntriesInSuffix(sorted, cut, e);
    }
  }

  lemma SuffixMultiset(s: seq<Entry>, cut: nat)
    requires cut <= |s|
    ensures multiset(s[cut..]) <= multiset(s)
  {
    assert s == s[..cut] + s[cut..];
  }

  /** In a list sorted oldest first, everything dated after the start of a
      suffix lies inside that suffix. */
  lemma LaterEntriesInSuffix(sorted: seq<Entry>, cut: nat, e: Entry)
    requires cut < |sorted|
    requires SortedBy(sorted, DateKey)
    requires e in sorted && e.date > sorted[cut].date
    ensures e in sorted[cut..]
  {
    var k :| 0 <= k < |sorted| && sorted[k] == e;
    assert k >= cut;
    assert sorted[cut..][k - cut] == e;
  }

  /** The sum of the logged intakes (`reduce((sum, e) => sum + e.calories, 0)`). */
  function TotalCalories(w: seq<Entry>): (r: int)
    ensures (forall i :: 0 <= i < |w| ==> HasCalories(w[i])) ==> r >= |w|
  {
    if |w| == 0 then 0 else CaloriesOf(w[0]) + TotalCalories(w[1..])
  }

  /** The total over a concatenation is the sum of the totals. */
  lemma {:induction false} TotalCaloriesConcat(a: seq<Entry>, b: seq<Entry>)
    ensures TotalCalories(a + b) == TotalCalories(a) + TotalCalories(b)
  {
    if |a| > 0 {
      assert (a + b)[1..] == a[1..] + b;
      TotalCaloriesConcat(a[1..], b);
    } else {
      assert a + b == b;
    }
  }

  /** The total does not depend on the order of the entries, so re-sorting
      the window leaves it unchanged. */
  lemma {:induction false} TotalCaloriesPermutation(a: seq<Entry>, b: seq<Entry>)
    requires multiset(a) == multiset(b)
    ensures TotalCalories(a) == TotalCalories(b)
  {
    if |a| > 0 {
      assert a[0] in multiset(b);
      var k :| 0 <= k < |b| && b[k] == a[0];
      var rest := b[..k] + b[k + 1..];
      assert b == b[..k] + [b[k]] + b[k + 1..];
      assert a == [a[0]] + a[1..];
      assert multiset(a) == multiset{a[0]} + multiset(a[1..]);
      assert multiset(b) == multiset(b[..k]) + multiset{b[k]} + multiset(b[k + 1..]);
      assert multiset(rest) == multiset(b[..k]) + multiset(b[k + 1..]);
      assert multiset(a[1..]) == multiset(a) - multiset{a[0]};
      assert multiset(rest) == multiset(b) - multiset{b[k]};
      TotalCaloriesPermutation(a[1..], rest);
      TotalCaloriesConcat(b[..k] + [b[k]], b[k + 1..]);
      TotalCaloriesConcat(b[..k], [b[k]]);
      TotalCaloriesConcat(b[..k], b[k + 1..]);
      assert TotalCalories([b[k]]) == CaloriesOf(a[0]);
    } else {
      assert |b| == |multiset(b)| == 0;
    }
  }

  /** Mean daily intake over the window. */
  function AverageCalories(w: seq<Entry>): (r: real)
    requires |w| > 0
    ensures r * (|w| as real) == TotalCalories(w) as real
  {
    TotalCalories(w) as real / |w| as real
  }

  /** Signed weight change from the window's first entry to its last. */
  function WeightChange(w: seq<Entry>): (r: real)
    requires |w| > 0
    ensures w[0].weight + r == w[|w| - 1].weight
  {
    w[|w| - 1].weight - w[0].weight
  }

  /** The sum of the weight differences between consecutive entries. */
  function WeightSteps(w: seq<Entry>): real
    requires |w| > 0
    decreases |w|
  {
    if |w| == 1 then 0.0 else (w[1].weight - w[0].weight) + WeightSteps(w[1..])
  }

  /** The window's weight change is the sum of its day-to-day changes, so
      only the two ends of the window matter. */
  lemma {:induction false} WeightChangeTelescopes(w: seq<Entry>)
    requires |w| > 0
    ensures WeightChange(w) == WeightSteps(w)
    decreases |w|
  {
    if |w| > 1 {
      WeightChangeTelescopes(w[1..]);
    }
  }

  /** Days between the window's first and last entry, at least 1. */
  function DaysDiff(w: seq<Entry>): (r: real)
    requires |w| > 0
    ensures r >= 1.0
    ensures var span := w[|w| - 1].date - w[0].date;
            r == if span >= 1 then span as real else 1.0
  {
    Max(1.0, (w[|w| - 1].date - w[0].date) as real)
  }

  /** The estimate as the engine writes it: intake PLUS the energy of the
      weight change per day. */
  function TdeeAsWritten(avgCalories: real, weightChange: real, days: real): (r: real)
    requires days >= 1.0
    ensures (r - avgCalories) * days == weightChange * CALORIES_PER_KG
  {
    avgCalories + (weightChange * CALORIES_PER_KG) / days
  }

  /** As written, losing weight lowers the estimate below the intake, which
      contradicts energy balance (a loss means expenditure exceeded intake). */
  lemma AsWrittenInvertsEnergyBalance(avgCalories: real, weightChange: real, days: real)
    requires days >= 1.0
    ensures weightChange < 0.0 ==> TdeeAsWritten(avgCalories, weightChange, days) < avgCalories
    ensures weightChange > 0.0 ==> TdeeAsWritten(avgCalories, weightChange, days) > avgCalories
  {
    var r := TdeeAsWritten(avgCalories, weightChange, days);
    MulMonotone(r - avgCalories, 0.0, days);
    MulMonotone(0.0, r - avgCalories, days);
  }

  /** 21 daily logs of 2000 kcal while dropping from 80.0 to 78.5 kg: the
      engine reports 1422.5 kcal/day, energy balance gives 2577.5. */
  lemma AsWrittenExample()
    ensures TdeeAsWritten(2000.0, -1.5, 20.0) == 1422.5
    ensures TdeeFromBalance(2000.0, -1.5, 20.0) == 2577.5
  {
  }

  /** The estimate by energy balance: what was eaten minus what was stored
      as body mass, per day. */
  function TdeeFromBalance(avgCalories: real, weightChange: real, days: real): (r: real)
    requires days >= 1.0
    ensures (avgCalories - r) * days == weightChange * CALORIES_PER_KG
    ensures weightChange < 0.0 ==> r > avgCalories
    ensures weightChange > 0.0 ==> r < avgCalories
    ensures weightChange == 0.0 ==> r == avgCalories
  {
    var stored := weightChange * CALORIES_PER_KG;
    MulMonotone(stored / days, 0.0, days);
    MulMonotone(0.0, stored / days, days);
    avgCalories - stored / days
  }

  /** Which estimate of the TDEE a report uses: the engine's formula as
      written, or the energy-balance formula with the sign corrected. */
  datatype Formula = AsWritten | EnergyBalance {
    function Apply(avgCalories: real, weightChange: real, days: real): real
      requires days >= 1.0
    {
      match this
      case AsWritten => TdeeAsWritten(avgCalories, weightChange, days)
      case EnergyBalance => TdeeFromBalance(avgCalories, weightChange, days)
    }
  }

  /** The unrounded estimate for a window. */
  function EstimatedTdee(w: seq<Entry>, formula: Formula): (r: real)
    requires |w| > 0
    ensures formula == AsWritten ==>
              (r - AverageCalories(w)) * DaysDiff(w) == WeightChange(w) * CALORIES_PER_KG
    ensures formula == EnergyBalance ==>
              (AverageCalories(w) - r) * DaysDiff(w) == WeightChange(w) * CALORIES_PER_KG
  {
    formula.Apply(AverageCalories(w), WeightChange(w), DaysDiff(w))
  }

  /** The two formulas agree exactly when the weight did not move. */
  lemma FormulasAgreeOnlyWithoutWeightChange(w: seq<Entry>)
    requires |w| > 0
    ensures EstimatedTdee(w, AsWritten) == EstimatedTdee(w, EnergyBalance) <==> WeightChange(w) == 0.0
  {
    var avg, change, days := AverageCalories(w), WeightChange(w), DaysDiff(w);
    var x := TdeeAsWritten(avg, change, days);
    var y := TdeeFromBalance(avg, change, days);
    assert (x - avg) * days == -((y - avg) * days);
    if change != 0.0 && x == y {
      assert false;
    }
  }

  /** 21 daily logs of 1500 kcal going from 80 to 77 kg over 20 days: as
      written the estimate is 345 kcal/day with low confidence; by energy
      balance it is 2655 kcal/day with high confidence. */
  lemma FormulaChangesConfidence()
    ensures TdeeAsWritten(1500.0, -3.0, 20.0) == 345.0
    ensures ConfidenceFor(21, TdeeAsWritten(1500.0, -3.0, 20.0)) == Low
    ensures TdeeFromBalance(1500.0, -3.0, 20.0) == 2655.0
    ensures ConfidenceFor(21, TdeeFromBalance(1500.0, -3.0, 20.0)) == High
  {
  }

  predicate InPlausibleBand(estimate: real) {
    REASONABLE_TDEE_MIN <= estimate <= REASONABLE_TDEE_MAX
  }

  /** The confidence label, computed as the engine does: start at medium,
      raise to high from 21 points, drop to low under 14 points, and drop to
      low whenever the estimate is implausible. */
  function ConfidenceFor(dataPoints: nat, estimate: real): (c: Confidence)
    ensures c == High <==> dataPoints >= IDEAL_DAYS_FOR_TDEE && InPlausibleBand(estimate)
    ensures c == Medium <==>
              MEDIUM_DAYS_FOR_TDEE <= dataPoints < IDEAL_DAYS_FOR_TDEE && InPlausibleBand(estimate)
    ensures c == Low <==> dataPoints < MEDIUM_DAYS_FOR_TDEE || !InPlausibleBand(estimate)
  {
    var start := Medium;
    var raised := if dataPoints >= IDEAL_DAYS_FOR_TDEE then High else start;
    var lowered := if dataPoints < MEDIUM_DAYS_FOR_TDEE then Low else raised;
    if estimate < REASONABLE_TDEE_MIN || estimate > REASONABLE_TDEE_MAX then Low else lowered
  }

  /** `calculateRealTDEE`. With `AsWritten` it is the engine's computation;
      with `EnergyBalance` the estimate's weight term has the corrected sign. */
  function RealTdee(entries: seq<Entry>, formula: Formula): (r: TdeeReport)
    ensures r.NoEstimate? <==> |WithCalories(entries)| < MIN_DAYS_FOR_TDEE
    ensures r.NoEstimate? ==> r.reason == InsufficientData && r.Level() == Low
    ensures r.Estimate? ==>
              && r.dataPoints == Min(MAX_ANALYSIS_DAYS, |WithCalories(entries)|)
              && MIN_DAYS_FOR_TDEE <= r.dataPoints <= MAX_ANALYSIS_DAYS
    ensures r.Estimate? ==>
              var estimate := EstimatedTdee(AnalysisWindow(entries), formula);
              && (r.confidence == High <==> r.dataPoints >= IDEAL_DAYS_FOR_TDEE && InPlausibleBand(estimate))
              && (r.confidence == Medium <==>
                    MEDIUM_DAYS_FOR_TDEE <= r.dataPoints < IDEAL_DAYS_FOR_TDEE && InPlausibleBand(estimate))
              && (r.confidence == Low <==> r.dataPoints < MEDIUM_DAYS_FOR_TDEE || !InPlausibleBand(estimate))
              && estimate - 0.5 < r.tdee as real <= estimate + 0.5
    ensures r.Estimate? ==>
              var w := AnalysisWindow(entries);
              && r.weightChange == WeightChange(w)
              && r.daysPeriod == Round(DaysDiff(w))
              && r.avgCalories == Round(AverageCalories(w))
  {
    var cal := WithCalories(entries);
    if |cal| < MIN_DAYS_FOR_TDEE then
      NoEstimate(InsufficientData)
    else
      var w := AnalysisWindow(entries);
      if |w| < MIN_DAYS_FOR_TDEE then
        NoEstimate(PeriodTooShort)
      else
        var weightChange := WeightChange(w);
        var daysDiff := DaysDiff(w);
        var avgCaloriesPerDay := AverageCalories(w);
        var estimate := formula.Apply(avgCaloriesPerDay, weightChange, daysDiff);
        Estimate(
          Round(estimate),
          ConfidenceFor(|w|, estimate),
          weightChange,
          Round(daysDiff),
          Round(avgCaloriesPerDay),
          |w|)
  }

  /** An entry without a positive intake can be added anywhere without
      changing the report. */
  lemma EntriesWithoutCaloriesIgnored(a: seq<Entry>, e: Entry, b: seq<Entry>, formula: Formula)
    requires !HasCalories(e)
    ensures RealTdee(a + [e] + b, formula) == RealTdee(a + b, formula)
  {
    FilterSkips(a, e, b, HasCalories);
  }

  /** The report depends on the calorie-bearing entries only. */
  lemma OnlyCalorieEntriesMatter(entries: seq<Entry>, formula: Formula)
    ensures RealTdee(WithCalories(entries), formula) == RealTdee(entries, formula)
  {
    var cal := WithCalories(entries);
    FilterKeepsAll(cal, HasCalories);
    assert WithCalories(cal) == cal;
    assert AnalysisWindow(cal) == AnalysisWindow(entries);
  }

  /** Fewer than seven logged intakes never yield an estimate, whatever the
      weights. */
  lemma TooFewCaloriesNoEstimate(entries: seq<Entry>, formula: Formula)
    requires |WithCalories(entries)| < MIN_DAYS_FOR_TDEE
    ensures RealTdee(entries, formula).Tdee() == None
    ensures RealTdee(entries, formula).Level() == Low
  {
  }

  /** The engine's report: when weight was lost over the window, the
      estimate lies below the average intake, and above it when weight was
      gained, the opposite of energy balance. */
  lemma AsWrittenReportInvertsBalance(entries: seq<Entry>)
    requires |WithCalories(entries)| >= MIN_DAYS_FOR_TDEE
    ensures RealTdee(entries, AsWritten).Estimate?
    ensures var w := AnalysisWindow(entries);
            && (WeightChange(w) < 0.0 ==> EstimatedTdee(w, AsWritten) < AverageCalories(w))
            && (WeightChange(w) > 0.0 ==> EstimatedTdee(w, AsWritten) > AverageCalories(w))
  {
    var w := AnalysisWindow(entries);
    AsWrittenInvertsEnergyBalance(AverageCalories(w), WeightChange(w), DaysDiff(w));
  }

  /** The corrected report: a loss over the window puts the estimate above
      the average intake, a gain below it, as energy balance requires. */
  lemma CorrectedReportFollowsBalance(entries: seq<Entry>)
    requires |WithCalories(entries)| >= MIN_DAYS_FOR_TDEE
    ensures RealTdee(entries, EnergyBalance).Estimate?
    ensures var w := AnalysisWindow(entries);
            && (WeightChange(w) < 0.0 ==> EstimatedTdee(w, EnergyBalance) > AverageCalories(w))
            && (WeightChange(w) > 0.0 ==> EstimatedTdee(w, EnergyBalance) < AverageCalories(w))
            && (WeightChange(w) == 0.0 ==> EstimatedTdee(w, EnergyBalance) == AverageCalories(w))
  {
  }
}

=== FILE: seqs.dfy ===
/** `Array.prototype.filter` over immutable sequences, and the facts about it
    that the engine and the store lean on. */
module Seqs {

  /** Keeps, in their original order, the elements that satisfy `p`. */
  function Filter<T>(s: seq<T>, p: T -> bool): (r: seq<T>)
    ensures |r| <= |s|
    ensures forall i :: 0 <= i < |r| ==> r[i] in s && p(r[i])
    ensures forall i :: 0 <= i < |s| && p(s[i]) ==> s[i] in r
  {
    if |s| == 0 then []
    else if p(s[0]) then [s[0]] + Filter(s[1..], p)
    else Filter(s[1..], p)
  }

  /** Filtering a concatenation filters each part. */
  lemma {:induction false} FilterConcat<T>(a: seq<T>, b: seq<T>, p: T -> bool)
    ensures Filter(a + b, p) == Filter(a, p) + Filter(b, p)
  {
    if |a| == 0 {
      assert a + b == b;
    } else {
      assert (a + b)[1..] == a[1..] + b;
      FilterConcat(a[1..], b, p);
    }
  }

  /** An element that fails `p` can be dropped from anywhere without changing
      the filtered sequence. */
  lemma FilterSkips<T>(a: seq<T>, x: T, b: seq<T>, p: T -> bool)
    requires !p(x)
    ensures Filter(a + [x] + b, p) == Filter(a + b, p)
  {
    FilterConcat(a + [x], b, p);
    FilterConcat(a, [x], p);
    FilterConcat(a, b, p);
    assert Filter([x], p) == Filter([x][1..], p) == [];
    assert Filter(a + [x], p) == Filter(a, p);
  }

  /** Filtering leaves a sequence whose elements all pass untouched. */
  lemma {:induction false} FilterKeepsAll<T>(s: seq<T>, p: T -> bool)
    requires forall i :: 0 <= i < |s| ==> p(s[i])
    ensures Filter(s, p) == s
  {
    if |s| > 0 {
      FilterKeepsAll(s[1..], p);
    }
  }

  /** Any pairwise relation between earlier and later elements that holds in
      `s` also holds in `Filter(s, p)`: filtering keeps the relative order. */
  lemma {:induction false} FilterKeepsOrder<T>(s: seq<T>, p: T -> bool, before: (T, T) -> bool)
    requires forall i, j :: 0 <= i < j < |s| ==> before(s[i], s[j])
    ensures forall i, j :: 0 <= i < j < |Filter(s, p)| ==> before(Filter(s, p)[i], Filter(s, p)[j])
  {
    if |s| > 0 {
      FilterKeepsOrder(s[1..], p, before);
      var t := Filter(s[1..], p);
      if p(s[0]) {
        var r := [s[0]] + t;
        forall i, j | 0 <= i < j < |r|
          ensures before(r[i], r[j])
        {
          if i == 0 {
            assert r[j] in t;
            assert r[j] in s[1..];
            var k :| 0 <= k < |s[1..]| && s[1..][k] == r[j];
            assert s[k + 1] == r[j];
          } else {
            assert r[i] == t[i - 1] && r[j] == t[j - 1];
          }
        }
      }
    }
  }
}

=== FILE: stable_sort.dfy ===
/** `Array.prototype.sort` with a numeric comparator. ECMAScript requires the
    sort to be stable, and a stable sort has exactly one possible output for
    a given comparator, so an insertion sort that keeps equal keys in their
    original order computes the same sequence the engine's sort does.
    Elements are ordered by ascending `key`; a descending sort is the same
    sort with the key negated. */
module StableSort {

  /** Non-decreasing keys from left to right. */
  predicate SortedBy<T>(s: seq<T>, key: T -> int) {
    forall i, j :: 0 <= i < j < |s| ==> key(s[i]) <= key(s[j])
  }

  /** Strictly increasing keys: sorted, and no key occurs twice. */
  predicate StrictlySortedBy<T>(s: seq<T>, key: T -> int) {
    forall i, j :: 0 <= i < j < |s| ==> key(s[i]) < key(s[j])
  }

  /** No two positions share a key. */
  predicate DistinctKeys<T>(s: seq<T>, key: T -> int) {
    forall i, j :: 0 <= i < j < |s| ==> key(s[i]) != key(s[j])
  }

  /** Places `x` after every element whose key is not greater than its own. */
  function Insert<T>(s: seq<T>, x: T, key: T -> int): (r: seq<T>)
    ensures |r| == |s| + 1
    ensures multiset(r) == multiset(s) + multiset{x}
  {
    if |s| == 0 then [x]
    else if key(s[0]) <= key(x) then
      assert s == [s[0]] + s[1..];
      [s[0]] + Insert(s[1..], x, key)
    else
      [x] + s
  }

  /** Every element of `Insert(s, x, key)` is `x` or comes from `s`. */
  lemma InsertMembers<T>(s: seq<T>, x: T, key: T -> int, k: nat)
    requires k < |Insert(s, x, key)|
    ensures Insert(s, x, key)[k] in s || Insert(s, x, key)[k] == x
  {
    var r := Insert(s, x, key);
    assert r[k] in multiset(r);
  }

  /** A head no greater than every key of a sorted tail extends it. */
  lemma ConsSorted<T>(h: T, t: seq<T>, key: T -> int, strict: bool)
    requires SortedBy(t, key) && (strict ==> StrictlySortedBy(t, key))
    requires forall k :: 0 <= k < |t| ==> key(h) <= key(t[k]) && (strict ==> key(h) < key(t[k]))
    ensures SortedBy([h] + t, key) && (strict ==> StrictlySortedBy([h] + t, key))
  {
    var r := [h] + t;
    forall i, j | 0 <= i < j < |r|
      ensures key(r[i]) <= key(r[j]) && (strict ==> key(r[i]) < key(r[j]))
    {
      assert r[j] == t[j - 1];
      if i > 0 {
        assert r[i] == t[i - 1];
      }
    }
  }

  /** Inserting into a sorted sequence keeps it sorted; inserting a fresh key
      into a strictly sorted sequence keeps it strictly sorted. */
  lemma {:induction false} InsertSorted<T>(s: seq<T>, x: T, key: T -> int, strict: bool)
    requires strict ==> StrictlySortedBy(s, key) && forall i :: 0 <= i < |s| ==> key(s[i]) != key(x)
    requires SortedBy(s, key)
    ensures SortedBy(Insert(s, x, key), key)
    ensures strict ==> StrictlySortedBy(Insert(s, x, key), key)
  {
    if |s| == 0 {
    } else if key(s[0]) <= key(x) {
      var t := Insert(s[1..], x, key);
      InsertSorted(s[1..], x, key, strict);
      forall k | 0 <= k < |t|
        ensures key(s[0]) <= key(t[k]) && (strict ==> key(s[0]) < key(t[k]))
      {
        InsertMembers(s[1..], x, key, k);
        if t[k] != x {
          var m :| 0 <= m < |s[1..]| && s[1..][m] == t[k];
          assert s[m + 1] == t[k];
        }
      }
      ConsSorted(s[0], t, key, strict);
    } else {
      ConsSorted(x, s, key, strict);
    }
  }

  /** Stable sort by ascending key. */
  function Sort<T>(s: seq<T>, key: T -> int): (r: seq<T>)
    ensures |r| == |s|
    ensures multiset(r) == multiset(s)
    ensures SortedBy(r, key)
    ensures DistinctKeys(s, key) ==> StrictlySortedBy(r, key)
  {
    if |s| == 0 then []
    else
      var init := s[..|s| - 1];
      var x := s[|s| - 1];
      assert s == init + [x];
      var t := Sort(init, key);
      InsertSorted(t, x, key, false);
      if DistinctKeys(s, key) then
        assert DistinctKeys(init, key);
        assert forall i :: 0 <= i < |t| ==> key(t[i]) != key(x) by {
          forall i | 0 <= i < |t|
            ensures key(t[i]) != key(x)
          {
            assert t[i] in multiset(init);
            var m :| 0 <= m < |init| && init[m] == t[i];
            assert s[m] == t[i];
          }
        }
        InsertSorted(t, x, key, true);
        Insert(t, x, key)
      else
        Insert(t, x, key)
  }

  /** Sorting keeps exactly the elements it was given. */
  lemma SortMembers<T>(s: seq<T>, key: T -> int)
    ensures forall x :: x in Sort(s, key) <==> x in s
  {
    var r := Sort(s, key);
    assert forall x :: x in r <==> x in multiset(r);
  }

  /** Inserting an element whose key is not below any present key appends it. */
  lemma {:induction false} InsertAtEnd<T>(s: seq<T>, x: T, key: T -> int)
    requires forall i :: 0 <= i < |s| ==> key(s[i]) <= key(x)
    ensures Insert(s, x, key) == s + [x]
  {
    if |s| > 0 {
      InsertAtEnd(s[1..], x, key);
      assert [s[0]] + (s[1..] + [x]) == s + [x];
    }
  }

  /** Sorting an already sorted sequence changes nothing: in particular, equal
      keys are never reordered. */
  lemma {:induction false} SortKeepsSorted<T>(s: seq<T>, key: T -> int)
    requires SortedBy(s, key)
    ensures Sort(s, key) == s
  {
    if |s| > 0 {
      var init := s[..|s| - 1];
      SortKeepsSorted(init, key);
      InsertAtEnd(init, s[|s| - 1], key);
      assert init + [s[|s| - 1]] == s;
    }
  }

  /** Two strictly sorted sequences with the same elements start alike. */
  lemma SameHead<T>(a: seq<T>, b: seq<T>, key: T -> int)
    requires StrictlySortedBy(a, key) && StrictlySortedBy(b, key)
    requires forall i :: 0 <= i < |a| ==> a[i] in b
    requires forall i :: 0 <= i < |b| ==> b[i] in a
    requires |a| > 0
    ensures |b| > 0 && a[0] == b[0]
  {
    assert a[0] in b;
    var i :| 0 <= i < |a| && a[i] == b[0];
    var j :| 0 <= j < |b| && b[j] == a[0];
  }

  /** Under a shared head, every later element of `a` is a later element of `b`. */
  lemma TailMembers<T>(a: seq<T>, b: seq<T>, key: T -> int)
    requires StrictlySortedBy(a, key) && StrictlySortedBy(b, key)
    requires forall i :: 0 <= i < |a| ==> a[i] in b
    requires |a| > 0 && |b| > 0 && a[0] == b[0]
    ensures forall k :: 0 <= k < |a| - 1 ==> a[1..][k] in b[1..]
  {
    forall k | 0 <= k < |a| - 1
      ensures a[1..][k] in b[1..]
    {
      var x := a[k + 1];
      assert key(a[0]) < key(x);
      var m :| 0 <= m < |b| && b[m] == x;
      assert m != 0;
      assert b[1..][m - 1] == x;
    }
  }

  /** Dropping the first element keeps a sequence strictly sorted. */
  lemma TailStrictlySorted<T>(s: seq<T>, key: T -> int)
    requires StrictlySortedBy(s, key) && |s| > 0
    ensures StrictlySortedBy(s[1..], key)
  {
    forall i, j | 0 <= i < j < |s| - 1
      ensures key(s[1..][i]) < key(s[1..][j])
    {
      assert s[1..][i] == s[i + 1] && s[1..][j] == s[j + 1];
    }
  }

  /** Two strictly sorted sequences with the same elements are equal. */
  lemma {:induction false} StrictlySortedUnique<T>(a: seq<T>, b: seq<T>, key: T -> int)
    requires StrictlySortedBy(a, key) && StrictlySortedBy(b, key)
    requires forall i :: 0 <= i < |a| ==> a[i] in b
    requires forall i :: 0 <= i < |b| ==> b[i] in a
    ensures a == b
  {
    if |a| == 0 {
      if |b| > 0 {
        assert false;
      }
    } else {
      SameHead(a, b, key);
      TailMembers(a, b, key);
      TailMembers(b, a, key);
      TailStrictlySorted(a, key);
      TailStrictlySorted(b, key);
      StrictlySortedUnique(a[1..], b[1..], key);
      SameHeadSameTail(a, b);
    }
  }

  /** Sequences that agree on their first element and on the rest are equal. */
  lemma SameHeadSameTail<T>(a: seq<T>, b: seq<T>)
    requires |a| > 0 && |b| > 0 && a[0] == b[0] && a[1..] == b[1..]
    ensures a == b
  {
    assert a == [a[0]] + a[1..] && b == [b[0]] + b[1..];
  }
}

=== FILE: trend.dfy ===
/** The time-series side of `CalculationEngine`: the logging streak, the
    four-week weight trend and the projected days to the target weight.
    The wall clock `now` is a parameter (days since the epoch, with the time
    of day as its fractional part); entries are expected newest first, as
    the store lists them. */
module Trend {
  import opened Numeric
  import opened Entries
  import opened Seqs

  /** The calendar day the clock is on. */
  function Today(now: real): int {
    now.Floor
  }

  /** `Math.floor((today - entryDate) / 86400000)`: whole days elapsed since
      the entry's midnight. */
  function DaysAgo(now: real, date: int): (r: int)
    ensures r == Today(now) - date
  {
    (now - date as real).Floor
  }

  /** `calculateStreak`: the number of leading entries dated today,
      yesterday, the day before, and so on without a gap. */
  method Streak(entries: seq<Entry>, now: real) returns (streak: nat)
    ensures streak <= |entries|
    ensures forall i :: 0 <= i < streak ==> entries[i].date == Today(now) - i
    ensures streak == |entries| || entries[streak].date != Today(now) - streak
    ensures |entries| > 0 && entries[0].date != Today(now) ==> streak == 0
  {
    if |entries| == 0 {
      return 0;
    }
    streak := 0;
    var i := 0;
    while i < |entries|
      invariant 0 <= i <= |entries|
      invariant streak == i
      invariant forall j :: 0 <= j < i ==> entries[j].date == Today(now) - j
    {
      var daysDiff := DaysAgo(now, entries[i].date);
      if daysDiff == streak {
        streak := streak + 1;
      } else {
        break;
      }
      i := i + 1;
    }
  }

  /** Length of the trend window, in days. */
  const TREND_WINDOW_DAYS: real := 28.0

  /** `new Date(entry.date) >= fourWeeksAgo`: the entry's midnight is not
      earlier than the clock moved back 28 days. */
  predicate InTrendWindow(now: real, e: Entry) {
    e.date as real >= now - TREND_WINDOW_DAYS
  }

  /** Because the clock carries the time of day, the day exactly 28 days
      back only belongs to the window at the stroke of midnight. */
  lemma TrendWindowBoundary(now: real, e: Entry)
    ensures InTrendWindow(now, e) <==>
              e.date > Today(now) - 28 || (e.date == Today(now) - 28 && now == Today(now) as real)
  {
  }

  /** The entries inside the trend window, in their original order. */
  function Recent(entries: seq<Entry>, now: real): (r: seq<Entry>)
    ensures forall i :: 0 <= i < |r| ==> InTrendWindow(now, r[i]) && r[i] in entries
    ensures forall i :: 0 <= i < |entries| && InTrendWindow(now, entries[i]) ==> entries[i] in r
    ensures NewestFirst(entries) ==> NewestFirst(r)
  {
    var inWindow := (e: Entry) => InTrendWindow(now, e);
    if NewestFirst(entries) then
      FilterKeepsOrder(entries, inWindow, (a: Entry, b: Entry) => a.date > b.date);
      Filter(entries, inWindow)
    else
      Filter(entries, inWindow)
  }

  /** The window of a concatenation is the two windows in sequence: the
      filter keeps every entry's position and multiplicity. */
  lemma RecentConcat(a: seq<Entry>, b: seq<Entry>, now: real)
    ensures Recent(a + b, now) == Recent(a, now) + Recent(b, now)
  {
    FilterConcat(a, b, (e: Entry) => InTrendWindow(now, e));
  }

  /** `Math.max(1, days between the window's first and last entry)`. */
  function TrendSpan(recent: seq<Entry>): (r: real)
    requires |recent| >= 2
    ensures r >= 1.0
  {
    Max(1.0, (recent[0].date - recent[|recent| - 1].date) as real)
  }

  /** `calculateWeeklyAverage`: kilograms lost per week over the window,
      from the window's last entry (the oldest, when listed newest first) to
      its first. Positive means losing, negative gaining, and 0 when fewer
      than two entries (in all, or in the window) are available. */
  function WeeklyAverage(entries: seq<Entry>, now: real): (r: real)
    ensures |entries| < 2 || |Recent(entries, now)| < 2 ==> r == 0.0
    ensures |Recent(entries, now)| >= 2 ==>
              var recent := Recent(entries, now);
              var newest := recent[0].weight;
              var oldest := recent[|recent| - 1].weight;
              && r * TrendSpan(recent) == 7.0 * (oldest - newest)
              && (r > 0.0 <==> newest < oldest)
              && (r < 0.0 <==> newest > oldest)
  {
    if |entries| < 2 then 0.0
    else
      var recent := Recent(entries, now);
      if |recent| < 2 then 0.0
      else
        var firstWeight := recent[|recent| - 1].weight;
        var lastWeight := recent[0].weight;
        var daysDiff := TrendSpan(recent);
        ((firstWeight - lastWeight) / daysDiff) * 7.0
  }

  /** With entries newest first, the span is the true number of days between
      the window's oldest and newest entries (at least 1). */
  lemma TrendSpanOfOrderedEntries(recent: seq<Entry>)
    requires |recent| >= 2
    requires NewestFirst(recent)
    ensures TrendSpan(recent) == (recent[0].date - recent[|recent| - 1].date) as real
  {
  }

  /** For a newest-first store, the weekly average is the weight lost from
      the oldest to the newest in-window entry, per week of the real number
      of days between them. */
  lemma WeeklyAverageOfOrderedEntries(entries: seq<Entry>, now: real)
    requires NewestFirst(entries)
    requires |Recent(entries, now)| >= 2
    ensures var recent := Recent(entries, now);
            var days := recent[0].date - recent[|recent| - 1].date;
            && days >= 1
            && WeeklyAverage(entries, now) * (days as real)
               == 7.0 * (recent[|recent| - 1].weight - recent[0].weight)
  {
    var recent := Recent(entries, now);
    TrendSpanOfOrderedEntries(recent);
  }

  /** Days to the target weight, or `∞` when no projection is possible. */
  datatype Projection = Unbounded | Days(n: nat)

  /** `calculateDaysToGoal`: projects the current trend forward from the
      newest entry's weight to the target. */
  function DaysToGoal(entries: seq<Entry>, targetWeight: real, now: real): (r: Projection)
    ensures r.Unbounded? <==>
              || |entries| < 2
              || WeeklyAverage(entries, now) == 0.0
              || (WeeklyAverage(entries, now) > 0.0 && entries[0].weight < targetWeight)
              || (WeeklyAverage(entries, now) < 0.0 && entries[0].weight > targetWeight)
    ensures r.Days? ==>
              var rate := Abs(WeeklyAverage(entries, now));
              var gap := Abs(entries[0].weight - targetWeight);
              && r.n as real * rate >= 7.0 * gap
              && (r.n == 0 || (r.n - 1) as real * rate < 7.0 * gap)
  {
    if |entries| < 2 then Unbounded
    else
      var weeklyAvg := WeeklyAverage(entries, now);
      if weeklyAvg == 0.0 then Unbounded
      else
        var weightToLose := entries[0].weight - targetWeight;
        if weeklyAvg > 0.0 && weightToLose < 0.0 then Unbounded
        else if weeklyAvg < 0.0 && weightToLose > 0.0 then Unbounded
        else
          var weeksNeeded := Abs(weightToLose / weeklyAvg);
          var days := Ceil(weeksNeeded * 7.0);
          DaysToGoalCovers(weightToLose, weeklyAvg);
          Days(days)
  }

  /** The rounded-up day count reaches the gap at the weekly rate and one
      day fewer would not. */
  lemma DaysToGoalCovers(gap: real, rate: real)
    requires rate != 0.0
    ensures Ceil(Abs(gap / rate) * 7.0) >= 0
    ensures var n := Ceil(Abs(gap / rate) * 7.0);
            && n as real * Abs(rate) >= 7.0 * Abs(gap)
            && (n == 0 || (n - 1) as real * Abs(rate) < 7.0 * Abs(gap))
  {
    var q := Abs(gap / rate);
    AbsQuotient(gap, rate);
    ScaleProduct(q, Abs(rate), Abs(gap), 7.0);
    CeilCovers(q * 7.0, Abs(rate), 7.0 * Abs(gap));
  }

  lemma ScaleProduct(q: real, a: real, g: real, k: real)
    requires q * a == g
    ensures (q * k) * a == k * g
  {
  }

  /** A trend heading towards the target always yields a finite projection. */
  lemma ConvergingTrendIsFinite(entries: seq<Entry>, targetWeight: real, now: real)
    requires |entries| >= 2
    requires || (WeeklyAverage(entries, now) > 0.0 && entries[0].weight >= targetWeight)
             || (WeeklyAverage(entries, now) < 0.0 && entries[0].weight <= targetWeight)
    ensures DaysToGoal(entries, targetWeight, now).Days?
  {
  }
}

=== FILE: wrappers.dfy ===
/** Wrappers used across the model: `Option` stands for a
    JavaScript value that may be `null`/`undefined`, `Result` for an operation
    that either succeeds or throws an `Error`. */
module Wrappers {

  datatype Option<+T> = None | Some(value: T) {

    /** The value when present, `default` otherwise (the source's `x || default`). */
    function GetOr(default: T): T {
      match this
      case Some(v) => v
      case None => default
    }
  }

  datatype Result<+R, +E> = Success(value: R) | Failure(error: E)
}
